=== FILE: README.md ===
# equation-dragger, modelled in Dafny

equation-dragger is a Unity game. It shows a random linear equation such as
`3x + 4 = -2 + 7x`, and the player drags terms about to combine them. This
project models its logic, leaving the engine out:

- `Fractions` is the exact rational type `Fraction`. It covers construction
  with sign normalisation and optional reduction by the hand-written GCD,
  the cross-multiplying operators, `%`, structural equality, the orderings
  (which compare truncated integer quotients), `Abs` and `ToString`.
  `IntMath` supplies C#'s truncating `/` and `%`, the GCD loop and the
  number theory behind them. `Decimal` is the decimal text of integers.
- `Terms` covers `ConstantTerm` and `VariableTerm`: the value a term
  reports, and the sign and digit texts of the objects it creates for a
  given `dropSign`.
- `VisualElements` covers `FracVisElem.update` (which parts are shown, and
  with what text), `calculateBounds` of both element kinds over measured
  part sizes, `setPosition` and `contains`.
- `Layout` covers `SpawnEquation`. Generation is modelled with the engine's
  random draws as inputs. The packing loops place the elements outward
  from the equals sign.
- `Overlap` is the largest-overlap target picker `getOverlappedTerm`.
- `Interaction` covers mouse-down classification, dragging, the per-frame
  `Update` step with `colorOverlap`, and the end values the combine and
  separate previews interpolate toward. The preview loops themselves can
  stop short of those values (see Findings). It also covers mouse-up and
  the final snap of the rebound.
- `Animation` is the frame-by-frame value of those previews.
- `Geometry` and `Outcomes` are shared vectors, boxes, `Result` and
  `Option`.

Several things outside the logic become inputs:

- Random draws, measured text sizes and widths.
- The physics engine's list of touching colliders.
- The world points a drag moves elements to. These stand in for the camera.
- Frame times.

Exceptions are `Err` values. C# `int` is modelled as unbounded `int`, and
C# `float` as exact `real` (see "## Left out").

Two details of the code are easy to misread, and the model follows the code
in both:

- `Random.Range(1, nTerms)` excludes nTerms, so the variable budget is at
  most nTerms - 1 (Layout.VariableBudget).
- The picker does not clamp the per-axis overlaps at zero, so two boxes
  that are apart on both axes score a positive area
  (Overlap.AreaIsUnclamped).

## Model

| member | source | states |
|---|---|---|
| IntMath.TruncatedDivision | Assets/Scripts/Fraction.cs:53 | C#'s int `/` and `%` split a into quotient·b + remainder, where the remainder is smaller than b in magnitude and carries a's sign (truncation toward zero, not Euclidean division) |
| IntMath.GcdIsGreatestCommonDivisor | Assets/Scripts/Fraction.cs:76-83 | the GCD loop terminates with a common divisor of its arguments that every common divisor divides; GCD(0, b) = b; the result is positive unless both arguments are 0 |
| Decimal.IntRoundTrip | Assets/Scripts/Fraction.cs:72 | an int's decimal text parses back to the same int and holds only digits and a leading '-' |
| Fractions.Make | Assets/Scripts/Fraction.cs:13-21 | throws DivideByZero exactly for a zero denominator; otherwise the denominator is positive and the value is numerator/denominator; a negative denominator flips both signs; normalising gives lowest terms, and zero becomes 0/1 |
| Fractions.FromFractions | Assets/Scripts/Fraction.cs:7-8 | the fraction-over-fraction constructor has the quotient of the two values and fails exactly when the divisor is zero |
| Fractions.FromFractionInt | Assets/Scripts/Fraction.cs:10-11 | the fraction-over-int constructor has the value divided by the int and fails exactly when the int is 0 |
| Fractions.Neg | Assets/Scripts/Fraction.cs:24 | unary minus gives the reduced fraction of the negated value |
| Fractions.Add | Assets/Scripts/Fraction.cs:26-27 | `+` gives the reduced fraction of the sum of the values |
| Fractions.Sub | Assets/Scripts/Fraction.cs:29-30 | `-` gives the reduced fraction of the difference of the values |
| Fractions.Mul | Assets/Scripts/Fraction.cs:32-33 | `*` gives the reduced fraction of the product of the values |
| Fractions.Div | Assets/Scripts/Fraction.cs:35-36 | `/` throws DivideByZero exactly when the divisor's numerator is 0; otherwise it gives the reduced quotient of the values |
| Fractions.MulInt | Assets/Scripts/Fraction.cs:38-39 | fraction times int gives the reduced fraction of the scaled value |
| Fractions.DivInt | Assets/Scripts/Fraction.cs:41-42 | fraction over int fails exactly for 0 and otherwise gives the reduced quotient |
| Fractions.Mod | Assets/Scripts/Fraction.cs:44-45 | `%` fails exactly for a zero divisor; otherwise a = k·b + r, with k the truncated quotient of a/b, r smaller than b in magnitude and r carrying a's sign |
| Fractions.EqualityIsValueEquality | Assets/Scripts/Fraction.cs:47-51 | on normalised fractions, componentwise `==` holds iff the values are equal; `== n` holds iff the value is n; `!=` is the opposite of each |
| Fractions.SixQuartersEqualThreeHalves | Assets/Scripts/Fraction.cs:47 | Fraction(6,4) == Fraction(3,2), because both normalise to 3/2 |
| Fractions.AddSubRoundTrip | Assets/Scripts/Fraction.cs:26-30 | (a + b) - b == a structurally, for every normalised a |
| Fractions.NegNegRoundTrip | Assets/Scripts/Fraction.cs:24 | -(-a) == a for every normalised a |
| Fractions.MulDivRoundTrip | Assets/Scripts/Fraction.cs:32-36 | (a * b) / b == a for every normalised a and non-zero b |
| Fractions.TruncBounds | Assets/Scripts/Fraction.cs:53 | the quotient `num/den` the orderings use is the value rounded toward zero |
| Fractions.OrderingsCompareTruncatedValues | Assets/Scripts/Fraction.cs:53-63 | `<` on truncated quotients implies `<` on values, `<=` on values implies `<=` on truncated quotients, and `>`, `>=` mirror `<`, `<=` |
| Fractions.TruncatedComparisonCounterexample | Assets/Scripts/Fraction.cs:53-57 | 1/2 < 3/4 is false, 3/4 <= 1/2 is true, and 1/2 < 0.25 is true |
| Fractions.CrossOrderIsValueOrder | Assets/Scripts/Fraction.cs:53 | comparing by cross-multiplication orders fractions exactly as their values, and is a strict total order on reduced fractions |
| Fractions.Absolute | Assets/Scripts/Fraction.cs:65 | `Abs` gives a non-negative numerator and the absolute value, and keeps a reduced fraction's denominator |
| Fractions.ToStringRoundTrip | Assets/Scripts/Fraction.cs:72 | `ToString` reads back as the same fraction; it contains '/' exactly when the denominator is not 1 |
| Terms.GetValueIsConstructorNumerator | Assets/Scripts/TermFactory.cs:96-137 | `getValue` of either kind of term is the constructor's numerator, whatever the denominator |
| Terms.ConstantSign | Assets/Scripts/TermFactory.cs:102-103 | a constant's sign is " + " iff it is non-negative and " - " iff negative; with dropSign it is "" iff non-negative and "- " iff negative |
| Terms.VariableSign | Assets/Scripts/TermFactory.cs:126-127 | a variable's sign is as a constant's, except that with dropSign a non-negative one gets " ", which differs from the constant's "" |
| Terms.ElementTexts | Assets/Scripts/TermFactory.cs:101-133 | a constant creates one object and a variable two, the second holding the variable's name |
| Terms.DisplayRoundTrip | Assets/Scripts/TermFactory.cs:101-133 | the first text of a term reads back as its value; a constant always shows digits; a variable shows a digit exactly when its magnitude is not 1, for +1 and -1 alike |
| Terms.ConstantTextRoundTrip | Assets/Scripts/TermFactory.cs:102-104 | a constant's text, with or without dropSign, reads back as its value and contains its digits |
| VisualElements.Update | Assets/Scripts/VisualElement.cs:184-215 | the sign is " - " iff negative; otherwise it is " " with hideSign and " + " without. A whole number hides line and denominator, and hides the numerator exactly when the value is +1 and hideOne is set. A proper fraction shows all three parts in the small font. A shown numerator is exactly the decimal text of the magnitude (so "0" for zero) and a shown denominator exactly the decimal text of the denominator; hidden ones keep their old text |
| VisualElements.NewFracView | Assets/Scripts/VisualElement.cs:171-182 | a new element that hides its numerator keeps the empty text and the large font; a shown numerator is exactly the decimal text of the magnitude, and a shown denominator that of the denominator |
| VisualElements.DisplayRoundTrip | Assets/Scripts/VisualElement.cs:184-215 | what `update` shows reads back as the fraction it was given, for every flag setting and every previous state |
| VisualElements.FracBounds | Assets/Scripts/VisualElement.cs:217-254 | line = (max(num w, den w) + 2, 2); fraction state: bounds = (sign w + line w, num h + 2 + den h); whole-number state: (sign w + num w, max of heights); hidden one: the sign's size. Exactly the state's offsets are written, and the others keep their values |
| VisualElements.FracBoundsTile | Assets/Scripts/VisualElement.cs:234-247 | the placed parts tile the box: sign and line (or sign and numerator) abut and span the width centred on the root; numerator, line and denominator stack to the height; the line endpoints are its two ends. The sign, the line and its endpoints (or the sign and the numerator) have y offset 0, and every written offset has z 0 |
| VisualElements.VarBounds | Assets/Scripts/VisualElement.cs:267-275 | the variable's text sits at the root, and the box and the collider are its measured size |
| VisualElements.SetPosition | Assets/Scripts/VisualElement.cs:29-43 | the root goes to pos and carries its child parts along: each active part goes to pos + its offset, and an active line's endpoints go likewise; an inactive part keeps its displacement from the root, and an inactive line keeps its world-space endpoints |
| VisualElements.SetPositionLastWins | Assets/Scripts/VisualElement.cs:29-43 | placing at p and then at q equals placing at q |
| VisualElements.SetPositionRigid | Assets/Scripts/VisualElement.cs:29-43 | the displacement between any two parts, active or not, does not depend on where the element is placed |
| VisualElements.Contains | Assets/Scripts/VisualElement.cs:64-71 | true iff the object is one of the element's registered parts |
| Layout.RandomRange | Assets/Scripts/EquationManager.cs:28-30 | an integer draw lies in [lo, hi), excluding hi |
| Layout.RandomRangeCovers | Assets/Scripts/EquationManager.cs:37 | every value of the range is the outcome of some draw |
| Layout.LeftCount | Assets/Scripts/EquationManager.cs:28 | the left-hand side has 1 to 4 terms |
| Layout.TermCount | Assets/Scripts/EquationManager.cs:28-29 | 1 to 4 terms on the left; at least one on the right, at least two when the left has one, at most four; at least 3 in all |
| Layout.VariableBudget | Assets/Scripts/EquationManager.cs:30 | the variable budget lies in [1, nTerms - 1] |
| Layout.FirstNonZero | Assets/Scripts/EquationManager.cs:37-38 | the retry loop yields a non-zero value in [-20, 20); it yields none exactly when every supplied draw is 0 |
| Layout.ChoosesVariable | Assets/Scripts/EquationManager.cs:35-40 | a spent budget never picks a variable; a budget equal to the terms left always picks one, short of a roll of exactly 1 |
| Layout.Generate | Assets/Scripts/EquationManager.cs:28-46 | generation succeeds iff the draws suffice. Each term's value is the first non-zero draw of its list, in [-20, 20), with denominator 1 and variable "x". dropSign holds exactly for i = 0 and i = nLft. Term i is a variable term exactly when its roll is below the budget left after the earlier terms' choices, divided by the number of terms left. There are at most the initial budget of variable terms, and exactly that many when no roll is 1 |
| Layout.RemainingSpent | Assets/Scripts/EquationManager.cs:33-41 | short of a roll of exactly 1, the budget left never exceeds the terms left, because a budget equal to the terms left makes every later roll choose a variable |
| Layout.Pack | Assets/Scripts/EquationManager.cs:48-68 | the nested loops put element j of term i at the closed-form position PackedX, so each term's positions come out in the order of its elements |
| Layout.PackedSides | Assets/Scripts/EquationManager.cs:52-68 | with positive widths, every left-hand element is at x < 0 and every right-hand element at x > 0 |
| Layout.PackedAbutWithinTerm | Assets/Scripts/EquationManager.cs:52-67 | neighbouring elements of a term abut: their centres are half the sum of their widths apart |
| Layout.PackedAbutAcrossTerms | Assets/Scripts/EquationManager.cs:48-68 | neighbouring terms abut, except across "=", where the gap is exactly the sign's width |
| Layout.PackedOrdered | Assets/Scripts/EquationManager.cs:48-68 | with positive widths, x strictly increases from the leftmost element of the equation to the rightmost |
| Overlap.Considered | Assets/Scripts/EquationManager.cs:170-175 | exactly the first min(count, 5) reported colliders are looked at: all of them when at most 5 are reported, the first 5 otherwise |
| Overlap.AreaIsUnclamped | Assets/Scripts/EquationManager.cs:188-190 | two boxes that are apart on both axes still give a positive area |
| Overlap.AreaOfOverlap | Assets/Scripts/EquationManager.cs:178-190 | for overlapping boxes the area is non-negative, symmetric and at most the grabbed box's area |
| Overlap.WinnerUnique | Assets/Scripts/EquationManager.cs:192 | the strictly-larger rule picks at most one hit: ties go to the earliest |
| Overlap.ScanAsWrittenFails | Assets/Scripts/EquationManager.cs:192-195 | the loop as written throws only KeyNotFound, only at a record-breaking collider that is not a term's element, and always when there is such a collider |
| Overlap.ScanAsWrittenReturns | Assets/Scripts/EquationManager.cs:175-196 | when the loop returns, its answer is the term of the largest-overlap hit, or null exactly when no area is positive |
| Overlap.OverlappedAsWrittenMeets | Assets/Scripts/EquationManager.cs:165-199 | `getOverlappedTerm` throws iff some record-breaking hit among the first 5 is not a term's element. Otherwise it returns the term of the unique largest positive-area hit, or null iff no area is positive |
| Overlap.PickIsWinner | Assets/Scripts/EquationManager.cs:165-199 | the corrected picker returns the term of the unique largest positive-area hit among other terms' elements, or null exactly when there is none; it never returns the grabbed term |
| Overlap.EqualsSignThrows | Assets/Scripts/EquationManager.cs:192-193 | a term dragged onto the equals sign makes the picker as written throw; the corrected picker returns null |
| Overlap.OwnCoefficientPicked | Assets/Scripts/EquationManager.cs:165-199 | a variable dragged over its own coefficient picks its own term; the corrected picker does not |
| Interaction.MouseDown | Assets/Scripts/EquationManager.cs:238-246 | a constant is Constant; element 0 of a variable term is Coefficient and any other element is Variable. The grabbed element is 1 only for Variable. The side is left iff positions[0].x < 0 |
| Interaction.GrabThenDrag | Assets/Scripts/EquationManager.cs:238-276 | after a grab, the first drag puts the clicked element at the mouse point; a click on a variable term's coefficient also carries the variable along, and any other click moves the clicked element alone; other terms do not change |
| Interaction.MouseDrag | Assets/Scripts/EquationManager.cs:248-276 | without a mover nothing changes; otherwise the grabbed element goes to the target, and a coefficient's variable goes to its companion point. No other element, stored position or term changes |
| Interaction.DragMany | Assets/Scripts/EquationManager.cs:248-276 | any number of drags changes only the live positions of the grabbed term |
| Interaction.ColorOverlap | Assets/Scripts/EquationManager.cs:151-162 | `overlapped` becomes the new target, and a highlight that matched `overlapped` still matches it |
| Interaction.TickAsWritten | Assets/Scripts/EquationManager.cs:132-148 | `overlapped` becomes the picker's answer. A separation starts exactly when a previous target is replaced or lost. A combine starts exactly when a new target appears and both it and the mover are constants. Without a mover nothing happens |
| Interaction.Tick | Assets/Scripts/EquationManager.cs:132-148 | as `TickAsWritten`, except that a separation starts only from a target a combine preview is showing on |
| Interaction.TickAgreesWithAsWritten | Assets/Scripts/EquationManager.cs:132-148 | the corrected step has the same session and the same combines as the step as written |
| Interaction.TickPairsPreviews | Assets/Scripts/EquationManager.cs:136-147 | one corrected step keeps the previews paired: every separation undoes the showing combine, and no combine starts over another |
| Interaction.RunPairsPreviews | Assets/Scripts/EquationManager.cs:132-148 | any run of corrected steps keeps the previews paired |
| Interaction.SeparationWithoutCombine | Assets/Scripts/EquationManager.cs:136-146 | as written, a coefficient moved over a constant and off again starts a separation from a term it never combined with |
| Interaction.SignFlipIffCrossed | Assets/Scripts/EquationManager.cs:286 | signFlip holds iff the stored and current x of the grabbed term's first element have strictly opposite signs |
| Interaction.CombinedValue | Assets/Scripts/EquationManager.cs:286-287 | the combined value is the target's value minus the mover's when it crossed "=", and plus it otherwise |
| Interaction.ApplyEffect | Assets/Scripts/EquationManager.cs:283-329 | the end values the previews interpolate toward, which the loops as written can stop short of (the corrected member of the last Findings row): for a combine, the target's text is the combined value written with its sign (" + " or " - ", never dropped) and the mover's alpha is 0; for a separation, the target's own value written the same way, and alpha 1. No term's value or position changes |
| Interaction.CombineThenSeparate | Assets/Scripts/EquationManager.cs:283-329 | a separation undoes a combine exactly, for a target that showed its value with its sign |
| Interaction.SeparationRestoresSign | Assets/Scripts/EquationManager.cs:289-299 | the previews never drop the sign: a side's first term, shown as "5", comes back as " + 5" |
| Interaction.Rebound | Assets/Scripts/EquationManager.cs:347-349 | the final snap puts every element of the term at its stored position and changes nothing else |
| Interaction.MouseUp | Assets/Scripts/EquationManager.cs:278-281 | the mover becomes null and the released term is back at its stored positions; the other terms, the target and the highlight are unchanged |
| Interaction.DragThenRelease | Assets/Scripts/EquationManager.cs:248-281 | any drags of a term at rest, followed by its release, leave the scene exactly as it was |
| Interaction.ReleaseStopsSteps | Assets/Scripts/EquationManager.cs:132-133 | after a release, steps start nothing and keep the old target highlighted |
| Interaction.Step | Assets/Scripts/EquationManager.cs:132-148 | a frame with the corrected picker sets `overlapped` to the picker's answer, which is never the grabbed term |
| Interaction.StepAsWritten | Assets/Scripts/EquationManager.cs:132-148 | a frame as written fails exactly when the picker throws, and otherwise sets `overlapped` to the picker's answer |
| Animation.LerpBetween | Assets/Scripts/EquationManager.cs:295 | `Mathf.Lerp` with its clamped parameter stays between its two ends |
| Animation.LerpEnds | Assets/Scripts/EquationManager.cs:295 | `Mathf.Lerp` at t = 0 is the start and at t = 1 is the end |
| Animation.Round | Assets/Scripts/EquationManager.cs:295 | `Mathf.Round` is within one half of its argument and rounds a half to the even integer |
| Animation.RoundBetween | Assets/Scripts/EquationManager.cs:295 | rounding a value between two integers stays between them |
| Animation.LastShownBetween | Assets/Scripts/EquationManager.cs:291-302 | every frame of a preview, including the last, shows a value between its start and its end |
| Animation.PreviewStopsShort | Assets/Scripts/EquationManager.cs:315-326 | with frame times 0.2, 0.04, 0.04 a separation from 24 back to 5 stops showing 6, and a single 0.25 s frame leaves 24 shown |

## Left out

- `Fraction.Pow` and `GetHashCode` go through `double`, and the unary `+` is the identity. None of them is modelled.
- C# 32-bit `int` overflow is not modelled. Integers are unbounded, so the arithmetic and construction contracts hold only where the C# computation does not wrap.
- `Equals(object)` is `==` on fractions and is not modelled separately.
- Unity construction and components are not modelled: `TermFactory.instantiate`, `_createVisElemGo`, `_addTextGo`, `_addLineGo`, colliders, rigidbodies, `LineRenderer` and `Image` colours. Nor are `setTextAlpha`, `setBgColor`, `setActive`, `destroy`, `renderTerm` and `printOffsets`. Only the texts, the active flags, an alpha per term and a highlight set are modelled.
- Text measurement (`_getPreferredSize`) is not modelled. Measured sizes and widths are inputs.
- `RectTransform.sizeDelta` and the collider sizes written by `calculateBounds` are not modelled, apart from the fraction line's collider size and the variable text's collider, which is its measured size.
- The camera's screen-to-world conversion and the mouse offset are not modelled. A drag supplies the world point of the grabbed element and, for a coefficient, of its variable.
- Interaction.MouseDown requires a valid term and element. The `termMap` lookup that would throw for an unknown object is not modelled.
- The physics query `OverlapCollider` is an input, as a list of hits with their boxes, in the order the engine reports them.
- C# `float` is modelled as exact `real`, with no rounding. This covers positions, widths, overlap areas, frame times, `Random.value`, `Mathf.Lerp` and the variable probability `(float)nVarTerms/(nTerms-i)`. Some contracts therefore hold exactly in the model but only up to float rounding in the game. They are:
  - the equalities of Layout.PackedAbutWithinTerm and Layout.PackedAbutAcrossTerms, which the game reaches through float sums;
  - the tie rule of Overlap.WinnerUnique, which compares float areas;
  - Layout.Generate's comparison of a roll with the probability;
  - the half-to-even case of Animation.Round, applied to a float Lerp result.
- `Random.Range` and `Random.value` are inputs, as raw draws. Layout.Generate returns None when the supplied draws run out; the game would draw again.
- The frame timing of the coroutines is an input. Interaction.ApplyEffect models the end values `CombineTerms` and `SeparateTerms` interpolate toward, and `Animation` the value each frame shows. The rebound is modelled by its final snap.
- The alpha fade of the previews is modelled by the value it interpolates toward. Like the text, the fade has no final snap, so the mover's alpha stops short of 0 or 1. No frame-by-frame alpha is modelled.
- Positions in `Layout.Pack` are x coordinates only: the packing loops set y and z to 0.
- `ClearEquation` is not modelled. It destroys the old objects.
- `ButtonClick`, `MouseHandler` and `CursorBlink` are not modelled. They are a debug handler, mouse-event forwarding and a UI timer.
- The commented-out picker is not modelled.

## Findings

| source | as written | input that shows it | evidently intended | confidence | as-written member | corrected member |
|---|---|---|---|---|---|---|
| Assets/Scripts/Fraction.cs:53-63 | the orderings compare the truncated int quotients `num/den` | Fraction(1,2) < Fraction(3,4) is false, because both quotients are 0 | compare the rational values | high; not executed | Fractions.TruncatedComparisonCounterexample | Fractions.CrossOrderIsValueOrder |
| Assets/Scripts/EquationManager.cs:192-193 | every record-breaking collider is looked up in `termMap` | the grabbed term over the equals sign, whose collider is not in `termMap`, throws KeyNotFoundException | skip colliders that are not term elements | high; not executed | Overlap.EqualsSignThrows | Overlap.PickIsWinner |
| Assets/Scripts/EquationManager.cs:175-196 | the grabbed term's own elements are candidates | a variable dragged over its own coefficient returns its own term as the target | only other terms are targets | medium; not executed | Overlap.OwnCoefficientPicked | Overlap.PickIsWinner |
| Assets/Scripts/EquationManager.cs:136-146 | losing or replacing any target starts `SeparateTerms` | a coefficient moved over a constant and off again separates from a term it never combined with | separate only from a target a combine preview is showing on | medium; not executed | Interaction.SeparationWithoutCombine | Interaction.RunPairsPreviews |
| Assets/Scripts/EquationManager.cs:315-326 | the preview loop ends at the last frame below the duration, with no final snap | separating 19 from 5 at frame times 0.2, 0.04, 0.04 s stops showing 6, not 5 | end on the target value, as `AnimateRebound`'s snap does | high; not executed | Animation.PreviewStopsShort | Interaction.ApplyEffect |

=== FILE: animation.dfy ===
/**
 * The frame-by-frame value of the combine and separate previews
 * (`CombineTerms`, `SeparateTerms`): each frame while the elapsed time is
 * below the duration shows `Mathf.Round(Mathf.Lerp(from, to, elapsed /
 * duration))`, then adds the frame's `Time.deltaTime`.  Frame times are an
 * input.
 */
module Animation {
  /** The length of every preview, in seconds. */
  const Duration: real := 0.25

  function Clamp01(t: real): (r: real)
    ensures 0.0 <= r <= 1.0
    ensures 0.0 <= t <= 1.0 ==> r == t
  {
    if t < 0.0 then 0.0 else if t > 1.0 then 1.0 else t
  }

  /** `Mathf.Lerp`: the parameter is clamped to [0, 1]. */
  function Lerp(a: real, b: real, t: real): real
  {
    a + (b - a) * Clamp01(t)
  }

  lemma LerpBetween(a: real, b: real, t: real)
    ensures a <= b ==> a <= Lerp(a, b, t) <= b
    ensures b <= a ==> b <= Lerp(a, b, t) <= a
  {
    var c := Clamp01(t);
    var d := b - a;
    assert Lerp(a, b, t) == a + d * c;
    if a <= b {
      ScaleBetween(d, c);
    } else {
      ScaleBetween(-d, c);
      NegateProduct(d, c);
    }
  }

  lemma NegateProduct(d: real, c: real)
    ensures d * c == -((-d) * c)
  {
  }

  /** The preview starts at `from` and, were it to reach t = 1, ends at `to`. */
  lemma LerpEnds(a: real, b: real)
    ensures Lerp(a, b, 0.0) == a && Lerp(a, b, 1.0) == b
  {
  }

  lemma ScaleBetween(d: real, c: real)
    requires d >= 0.0 && 0.0 <= c <= 1.0
    ensures 0.0 <= d * c <= d
  {
    assert d * c <= d * 1.0;
  }

  /** `Mathf.Round`: to the nearest integer, halves to the even one. */
  function Round(x: real): (r: int)
    ensures -0.5 <= r as real - x <= 0.5
    ensures x - x.Floor as real == 0.5 ==> r % 2 == 0
  {
    var f := x.Floor;
    var d := x - f as real;
    if d < 0.5 then f
    else if d > 0.5 then f + 1
    else if f % 2 == 0 then f else f + 1
  }

  /** Rounding a value that lies between two integers stays between them. */
  lemma RoundBetween(x: real, lo: int, hi: int)
    requires lo as real <= x <= hi as real
    ensures lo <= Round(x) <= hi
  {
    var f := x.Floor;
    assert lo <= f;
    if f >= hi {
      assert x == hi as real;
    }
  }

  /**
   * What the preview loop shows when it stops: the value of the last frame
   * whose elapsed time was below `Duration` (`shown` when no frame ran).
   * When the supplied frame times run out first, the value of the last
   * frame supplied.
   */
  function LastShown(from: int, to: int, elapsed: real, frames: seq<real>, shown: int): (r: int)
    decreases |frames|
  {
    if elapsed >= Duration then shown
    else
      var value := Round(Lerp(from as real, to as real, elapsed / Duration));
      if |frames| == 0 then value
      else LastShown(from, to, elapsed + frames[0], frames[1..], value)
  }

  function MinInt(a: int, b: int): int { if a <= b then a else b }
  function MaxInt(a: int, b: int): int { if a <= b then b else a }

  /** Every frame shows a value between the two ends, so the last one does. */
  lemma {:induction false} LastShownBetween(from: int, to: int, elapsed: real, frames: seq<real>, shown: int)
    requires MinInt(from, to) <= shown <= MaxInt(from, to)
    ensures MinInt(from, to) <= LastShown(from, to, elapsed, frames, shown) <= MaxInt(from, to)
    decreases |frames|
  {
    if elapsed < Duration {
      var x := Lerp(from as real, to as real, elapsed / Duration);
      LerpBetween(from as real, to as real, elapsed / Duration);
      RoundBetween(x, MinInt(from, to), MaxInt(from, to));
      if |frames| > 0 {
        LastShownBetween(from, to, elapsed + frames[0], frames[1..], Round(x));
      }
    }
  }

  /**
   * Without the snap the preview can stop short.  Separating a 19 from a 5
   * (showing 24, going back to 5) at frame times 0.2 s, 0.04 s, 0.04 s
   * shows 24, then 9, then 6, and stops at 6; a single 0.25 s frame never
   * leaves 24.  The end state the preview is meant to reach is the one
   * `Interaction.ApplyEffect` describes.
   */
  lemma PreviewStopsShort()
    ensures LastShown(24, 5, 0.0, [0.2, 0.04, 0.04], 24) == 6
    ensures LastShown(24, 5, 0.0, [0.25], 24) == 24
  {
    assert Round(Lerp(24.0, 5.0, 0.0 / Duration)) == 24;
    assert Lerp(24.0, 5.0, 0.2 / Duration) == 8.8;
    assert Round(8.8) == 9;
    assert Lerp(24.0, 5.0, (0.2 + 0.04) / Duration) == 5.76;
    assert Round(5.76) == 6;
  }
}

=== FILE: decimal.dfy ===
/**
 * Decimal text of integers, as C#'s `int.ToString()` and string
 * interpolation `$"{n}"` produce it, together with a reader that inverts it.
 */
module Decimal {
  import opened Outcomes

  predicate IsDigit(c: char)
  {
    '0' <= c <= '9'
  }

  predicate AllDigits(s: string)
  {
    forall i :: 0 <= i < |s| ==> IsDigit(s[i])
  }

  function DigitChar(d: nat): (c: char)
    requires d < 10
    ensures IsDigit(c)
  {
    ('0' as int + d) as char
  }

  function DigitValue(c: char): (d: nat)
    requires IsDigit(c)
    ensures d < 10
  {
    c as int - '0' as int
  }

  /** The decimal digits of `n`, most significant first, without leading zeros. */
  function NatToString(n: nat): (s: string)
    ensures |s| > 0 && AllDigits(s)
    ensures s[0] == '0' ==> n == 0
    decreases n
  {
    if n < 10 then [DigitChar(n)] else NatToString(n / 10) + [DigitChar(n % 10)]
  }

  /** The number a string of decimal digits denotes (0 for the empty string). */
  function ParseDigits(s: string): nat
    requires AllDigits(s)
  {
    if |s| == 0 then 0 else ParseDigits(s[..|s| - 1]) * 10 + DigitValue(s[|s| - 1])
  }

  /** Reading back the digits of `n` gives `n`. */
  lemma {:induction false} NatRoundTrip(n: nat)
    ensures ParseDigits(NatToString(n)) == n
    decreases n
  {
    var s := NatToString(n);
    if n >= 10 {
      NatRoundTrip(n / 10);
      assert s[..|s| - 1] == NatToString(n / 10);
    }
  }

  /** `n.ToString()`: a leading '-' for negative numbers, then the digits of |n|. */
  function IntToString(n: int): (s: string)
    ensures |s| > 0 && (s[0] == '-' <==> n < 0)
  {
    if n < 0 then "-" + NatToString(-n) else NatToString(n)
  }

  /** Reads an optional '-' followed by at least one digit. */
  function ParseInt(s: string): Option<int>
  {
    if |s| > 0 && s[0] == '-' then
      if |s| > 1 && AllDigits(s[1..]) then Some(-(ParseDigits(s[1..]) as int)) else None
    else if |s| > 0 && AllDigits(s) then Some(ParseDigits(s))
    else None
  }

  /** Reading back the text of `n` gives `n`, so distinct integers have
      distinct texts, and the text never contains anything but '-' and digits. */
  lemma IntRoundTrip(n: int)
    ensures ParseInt(IntToString(n)) == Some(n)
    ensures forall i :: 0 <= i < |IntToString(n)| ==> IntToString(n)[i] == '-' || IsDigit(IntToString(n)[i])
  {
    var s := IntToString(n);
    if n < 0 {
      NatRoundTrip(-n);
      assert s[1..] == NatToString(-n);
    } else {
      NatRoundTrip(n);
    }
  }
}

=== FILE: fractions.dfy ===
/**
 * The exact rational value type `Fraction`. The sign is carried on the
 * numerator; construction rejects a zero denominator, moves a negative
 * denominator's sign onto the numerator and (by default) reduces by the
 * greatest common divisor. Arithmetic cross-multiplies and re-constructs.
 */
module Fractions {
  import opened Outcomes
  import opened IntMath
  import opened Decimal

  datatype Fraction = Fraction(num: int, den: int)

  /** Every fraction the constructors produce has a positive denominator. */
  predicate Valid(f: Fraction)
  {
    f.den > 0
  }

  /** Lowest terms with a positive denominator: what a normalising
      construction produces. */
  ghost predicate Reduced(f: Fraction)
  {
    f.den > 0 && Coprime(Abs(f.num), f.den)
  }

  /** The rational number a fraction denotes. */
  function Value(f: Fraction): real
    requires f.den != 0
  {
    f.num as real / f.den as real
  }

  // ---------------------------------------------------------------------
  // Real-number facts used to read integer identities as values
  // ---------------------------------------------------------------------

  lemma CastMul(x: int, y: int)
    ensures (x * y) as real == (x as real) * (y as real)
  {
  }

  /** Two quotients with positive denominators compare as their cross products. */
  lemma CrossValue(p: int, q: int, r: int, s: int)
    requires q > 0 && s > 0
    ensures (p as real / q as real == r as real / s as real) <==> p * s == r * q
    ensures (p as real / q as real < r as real / s as real) <==> p * s < r * q
  {
    CastMul(p, s);
    CastMul(r, q);
  }

  lemma NegQuotient(x: int, y: int)
    requires y > 0
    ensures (-x) as real / y as real == -(x as real / y as real)
  {
  }

  lemma SumQuotients(p: int, q: int, r: int, s: int)
    requires q > 0 && s > 0
    ensures (p * s + r * q) as real / (q * s) as real == p as real / q as real + r as real / s as real
  {
    CastMul(p, s);
    CastMul(r, q);
    CastMul(q, s);
  }

  lemma DiffQuotients(p: int, q: int, r: int, s: int)
    requires q > 0 && s > 0
    ensures (p * s - r * q) as real / (q * s) as real == p as real / q as real - r as real / s as real
  {
    CastMul(p, s);
    CastMul(r, q);
    CastMul(q, s);
  }

  lemma ProdQuotients(p: int, q: int, r: int, s: int)
    requires q > 0 && s > 0
    ensures (p * r) as real / (q * s) as real == (p as real / q as real) * (r as real / s as real)
  {
    CastMul(p, r);
    CastMul(q, s);
  }

  lemma ScaleQuotient(p: int, q: int, k: int)
    requires q > 0
    ensures (p * k) as real / q as real == (p as real / q as real) * k as real
  {
    CastMul(p, k);
  }

  lemma ShrinkQuotient(p: int, q: int, k: int)
    requires q > 0 && k != 0
    ensures p as real / (q * k) as real == (p as real / q as real) / k as real
  {
    CastMul(q, k);
    RealShrink(p as real, q as real, k as real);
  }

  lemma RealShrink(p: real, q: real, k: real)
    requires q != 0.0 && k != 0.0
    ensures p / (q * k) == (p / q) / k
  {
    var x := p / q;
    assert x * q == p;
    assert (x / k) * (q * k) == x * q;
  }

  lemma ScaledCross(u: int, v: int, g: int, n: int, d: int)
    requires u * g == n && v * g == d
    ensures u * d == n * v
  {
    assert u * d == u * (v * g);
    assert n * v == (u * g) * v;
  }

  lemma PositiveProduct(x: int, y: int)
    requires x > 0 && y > 0
    ensures x * y > 0
  {
    MulNonNeg(x - 1, y);
  }

  lemma AbsMul(x: int, y: int)
    ensures Abs(x * y) == Abs(x) * Abs(y)
  {
    if x < 0 && y < 0 {
      assert x * y == (-x) * (-y);
    } else if x < 0 {
      assert x * y == -((-x) * y);
    } else if y < 0 {
      assert x * y == -(x * (-y));
    }
  }

  // ---------------------------------------------------------------------
  // Construction
  // ---------------------------------------------------------------------

  /** Dividing `n` and `d > 0` by their gcd is exact and leaves lowest terms. */
  lemma Normalization(n: int, d: int)
    requires d > 0
    ensures Gcd(Abs(n), d) > 0
    ensures CsDiv(n, Gcd(Abs(n), d)) * Gcd(Abs(n), d) == n
    ensures CsDiv(d, Gcd(Abs(n), d)) * Gcd(Abs(n), d) == d
    ensures CsDiv(d, Gcd(Abs(n), d)) > 0
    ensures Coprime(Abs(CsDiv(n, Gcd(Abs(n), d))), CsDiv(d, Gcd(Abs(n), d)))
    ensures n == 0 ==> CsDiv(n, Gcd(Abs(n), d)) == 0 && CsDiv(d, Gcd(Abs(n), d)) == 1
  {
    var g := Gcd(Abs(n), d);
    GcdDivides(Abs(n), d);
    DividesCombination(g, 0, Abs(n), if n < 0 then -1 else 1);
    assert Divides(g, n);
    ExactCsDiv(n, g);
    ExactCsDiv(d, g);
    ReducedIsCoprime(Abs(n), d);
    var v := CsDiv(d, g);
    if v <= 0 {
      MulNonNeg(-v, g);
    }
    if n == 0 {
      assert g == d;
      MultipleDivides(d, 1);
    }
  }

  /** Reading a construction's cross-multiplication as values: `f` was
      built from the sign-corrected pair of `numerator/denominator`. */
  lemma ConstructionValue(f: Fraction, numerator: int, denominator: int)
    requires f.den > 0 && denominator != 0
    requires f.num * (if denominator < 0 then -denominator else denominator)
          == (if denominator < 0 then -numerator else numerator) * f.den
    ensures f.num * denominator == numerator * f.den
    ensures Value(f) == numerator as real / denominator as real
  {
    if denominator > 0 {
      CrossValue(f.num, f.den, numerator, denominator);
    } else {
      CrossValue(f.num, f.den, -numerator, -denominator);
      assert (-numerator) as real / (-denominator) as real == numerator as real / denominator as real;
    }
  }

  /**
   * `new Fraction(numerator, denominator, _normalize)`: throws
   * DivideByZero for a zero denominator; otherwise the result has a
   * positive denominator, denotes numerator/denominator, is in lowest
   * terms when normalising (so zero becomes 0/1), and without normalising
   * only has both signs flipped when the denominator was negative.
   */
  function Make(numerator: int, denominator: int, normalize: bool := true): (r: Result<Fraction>)
    ensures r.Err? <==> denominator == 0
    ensures r.Err? ==> r.error == DivideByZero
    ensures r.Ok? ==> r.value.den > 0 && Value(r.value) == numerator as real / denominator as real
    ensures r.Ok? && normalize ==> Reduced(r.value)
    ensures r.Ok? && normalize && numerator == 0 ==> r.value == Fraction(0, 1)
    ensures r.Ok? && !normalize && denominator > 0 ==> r.value == Fraction(numerator, denominator)
    ensures r.Ok? && !normalize && denominator < 0 ==> r.value == Fraction(-numerator, -denominator)
  {
    if denominator == 0 then Err(DivideByZero)
    else
      var n := if denominator < 0 then -numerator else numerator;
      var d := if denominator < 0 then -denominator else denominator;
      if !normalize then
        ConstructionValue(Fraction(n, d), numerator, denominator);
        Ok(Fraction(n, d))
      else
        var g := Gcd(Abs(n), d);
        Normalization(n, d);
        var f := Fraction(CsDiv(n, g), CsDiv(d, g));
        ScaledCross(f.num, f.den, g, n, d);
        ConstructionValue(f, numerator, denominator);
        Ok(f)
  }

  /** `new Fraction(Fraction numerator, Fraction denominator, _normalize)`:
      the quotient of two fractions; fails exactly when the divisor is zero. */
  function FromFractions(numerator: Fraction, denominator: Fraction, normalize: bool := true): (r: Result<Fraction>)
    requires Valid(numerator) && Valid(denominator)
    ensures r.Err? <==> denominator.num == 0
    ensures r.Ok? ==> Valid(r.value) && Value(r.value) == Value(numerator) / Value(denominator)
    ensures r.Ok? && normalize ==> Reduced(r.value)
  {
    var r := Make(numerator.num * denominator.den, numerator.den * denominator.num, normalize);
    ZeroProduct(numerator.den, denominator.num);
    if r.Ok? then QuotientValue(numerator, denominator); r else r
  }

  /** `new Fraction(Fraction numerator, int denominator, _normalize)`. */
  function FromFractionInt(numerator: Fraction, denominator: int, normalize: bool := true): (r: Result<Fraction>)
    requires Valid(numerator)
    ensures r.Err? <==> denominator == 0
    ensures r.Ok? ==> Valid(r.value) && Value(r.value) == Value(numerator) / denominator as real
    ensures r.Ok? && normalize ==> Reduced(r.value)
  {
    ZeroProduct(numerator.den, denominator);
    var r := Make(numerator.num, numerator.den * denominator, normalize);
    if r.Ok? then
      ShrinkQuotient(numerator.num, numerator.den, denominator);
      r
    else r
  }

  lemma ZeroProduct(x: int, y: int)
    requires x != 0
    ensures x * y == 0 <==> y == 0
  {
    if y != 0 {
      AbsMul(x, y);
      PositiveProduct(Abs(x), Abs(y));
    }
  }

  lemma QuotientValue(a: Fraction, b: Fraction)
    requires Valid(a) && Valid(b) && b.num != 0
    ensures (a.num * b.den) as real / (a.den * b.num) as real == Value(a) / Value(b)
  {
    CastMul(a.num, b.den);
    CastMul(a.den, b.num);
  }

  // ---------------------------------------------------------------------
  // Arithmetic operators
  // ---------------------------------------------------------------------

  /** Unary `-`: negates the value and normalises. */
  function Neg(a: Fraction): (r: Fraction)
    requires Valid(a)
    ensures Reduced(r) && Value(r) == -Value(a)
  {
    NegQuotient(a.num, a.den);
    Make(-a.num, a.den).value
  }

  /** Binary `+`. */
  function Add(a: Fraction, b: Fraction): (r: Fraction)
    requires Valid(a) && Valid(b)
    ensures Reduced(r) && Value(r) == Value(a) + Value(b)
  {
    PositiveProduct(a.den, b.den);
    SumQuotients(a.num, a.den, b.num, b.den);
    Make(a.num * b.den + b.num * a.den, a.den * b.den).value
  }

  /** Binary `-`. */
  function Sub(a: Fraction, b: Fraction): (r: Fraction)
    requires Valid(a) && Valid(b)
    ensures Reduced(r) && Value(r) == Value(a) - Value(b)
  {
    PositiveProduct(a.den, b.den);
    DiffQuotients(a.num, a.den, b.num, b.den);
    Make(a.num * b.den - b.num * a.den, a.den * b.den).value
  }

  /** Binary `*`. */
  function Mul(a: Fraction, b: Fraction): (r: Fraction)
    requires Valid(a) && Valid(b)
    ensures Reduced(r) && Value(r) == Value(a) * Value(b)
  {
    PositiveProduct(a.den, b.den);
    ProdQuotients(a.num, a.den, b.num, b.den);
    Make(a.num * b.num, a.den * b.den).value
  }

  /** Binary `/`: throws DivideByZero exactly when the divisor's numerator is 0. */
  function Div(a: Fraction, b: Fraction): (r: Result<Fraction>)
    requires Valid(a) && Valid(b)
    ensures r.Err? <==> b.num == 0
    ensures r.Err? ==> r.error == DivideByZero
    ensures r.Ok? ==> Reduced(r.value) && Value(r.value) == Value(a) / Value(b)
  {
    ZeroProduct(a.den, b.num);
    var r := Make(a.num * b.den, a.den * b.num);
    if r.Ok? then QuotientValue(a, b); r else r
  }

  /** `Fraction * int`. */
  function MulInt(a: Fraction, k: int): (r: Fraction)
    requires Valid(a)
    ensures Reduced(r) && Value(r) == Value(a) * k as real
  {
    ScaleQuotient(a.num, a.den, k);
    Make(a.num * k, a.den).value
  }

  /** `Fraction / int`: throws DivideByZero exactly when `k` is 0. */
  function DivInt(a: Fraction, k: int): (r: Result<Fraction>)
    requires Valid(a)
    ensures r.Err? <==> k == 0
    ensures r.Ok? ==> Reduced(r.value) && Value(r.value) == Value(a) / k as real
  {
    ZeroProduct(a.den, k);
    var r := Make(a.num, a.den * k);
    if r.Ok? then ShrinkQuotient(a.num, a.den, k); r else r
  }

  /**
   * `%`: C#'s integer remainder of the cross-multiplied numerators over the
   * product of the denominators. It throws DivideByZero exactly when the
   * divisor is zero; otherwise `a == k * b + r` for the integer `k` that
   * truncates a/b toward zero, |r| < |b|, and r has the sign of a.
   */
  function Mod(a: Fraction, b: Fraction): (r: Result<Fraction>)
    requires Valid(a) && Valid(b)
    ensures r.Err? <==> b.num == 0
    ensures r.Ok? ==> Reduced(r.value)
    ensures r.Ok? ==>
      Value(a) == CsDiv(a.num * b.den, b.num * a.den) as real * Value(b) + Value(r.value)
    ensures r.Ok? && Value(b) > 0.0 ==> -Value(b) < Value(r.value) < Value(b)
    ensures r.Ok? && Value(b) < 0.0 ==> Value(b) < Value(r.value) < -Value(b)
    ensures r.Ok? && Value(a) >= 0.0 ==> Value(r.value) >= 0.0
    ensures r.Ok? && Value(a) <= 0.0 ==> Value(r.value) <= 0.0
  {
    ZeroProduct(a.den, b.num);
    if b.num == 0 then Err(DivideByZero)
    else
      var x, y, D := a.num * b.den, b.num * a.den, a.den * b.den;
      PositiveProduct(a.den, b.den);
      var r := Make(CsRem(x, y), D).value;
      CommonDenominator(a, b);
      RemainderValue(Value(a), Value(b), x, y, D, Value(r));
      Ok(r)
  }

  /** Both operands over the product of the denominators. */
  lemma CommonDenominator(a: Fraction, b: Fraction)
    requires Valid(a) && Valid(b)
    ensures Value(a) == (a.num * b.den) as real / (a.den * b.den) as real
    ensures Value(b) == (b.num * a.den) as real / (a.den * b.den) as real
  {
    ExpandQuotient(a.num, a.den, b.den);
    ExpandQuotient(b.num, b.den, a.den);
    assert b.den * a.den == a.den * b.den;
  }

  /** The remainder identity and bounds, read as values over a common
      denominator D. */
  lemma RemainderValue(va: real, vb: real, x: int, y: int, D: int, vr: real)
    requires y != 0 && D > 0
    requires va == x as real / D as real && vb == y as real / D as real
    requires vr == CsRem(x, y) as real / D as real
    ensures va == CsDiv(x, y) as real * vb + vr
    ensures vb > 0.0 ==> -vb < vr < vb
    ensures vb < 0.0 ==> vb < vr < -vb
    ensures va >= 0.0 ==> vr >= 0.0
    ensures va <= 0.0 ==> vr <= 0.0
  {
    TruncatedDivision(x, y);
    SplitQuotient(x, CsDiv(x, y), y, CsRem(x, y), D);
    RemainderBounds(x, y, CsRem(x, y), D);
  }

  /** p/q == (p*s)/(q*s) */
  lemma ExpandQuotient(p: int, q: int, s: int)
    requires q > 0 && s > 0
    ensures (p * s) as real / (q * s) as real == p as real / q as real
  {
    CastMul(p, s);
    CastMul(q, s);
  }

  lemma SplitQuotient(x: int, q: int, y: int, m: int, D: int)
    requires D > 0 && x == q * y + m
    ensures x as real / D as real == q as real * (y as real / D as real) + m as real / D as real
  {
    CastMul(q, y);
  }

  lemma RemainderBounds(x: int, y: int, m: int, D: int)
    requires D > 0 && y != 0 && Abs(m) < Abs(y)
    requires x >= 0 ==> m >= 0
    requires x <= 0 ==> m <= 0
    ensures y > 0 ==> -(y as real / D as real) < m as real / D as real < y as real / D as real
    ensures y < 0 ==> y as real / D as real < m as real / D as real < -(y as real / D as real)
    ensures x as real / D as real >= 0.0 ==> m as real / D as real >= 0.0
    ensures x as real / D as real <= 0.0 ==> m as real / D as real <= 0.0
  {
  }

  // ---------------------------------------------------------------------
  // Equality
  // ---------------------------------------------------------------------

  /** `a == b` on fractions: componentwise. */
  predicate Equal(a: Fraction, b: Fraction)
  {
    a.num == b.num && a.den == b.den
  }

  /** `a == n` for an int `n`: only a fraction with denominator 1 can match. */
  predicate EqualInt(a: Fraction, n: int)
  {
    a.num == n && a.den == 1
  }

  /** `a != b` and `a != n`: the negations. */
  predicate NotEqual(a: Fraction, b: Fraction)
  {
    !Equal(a, b)
  }

  predicate NotEqualInt(a: Fraction, n: int)
  {
    !EqualInt(a, n)
  }

  /** Two fractions in lowest terms denote the same number only if they are
      the same pair: reduced form is unique. */
  lemma ReducedUnique(a: Fraction, b: Fraction)
    requires Reduced(a) && Reduced(b) && Value(a) == Value(b)
    ensures a == b
  {
    CrossValue(a.num, a.den, b.num, b.den);
    ReducedUniqueCross(a, b);
  }

  lemma ReducedUniqueCross(a: Fraction, b: Fraction)
    requires Reduced(a) && Reduced(b) && a.num * b.den == b.num * a.den
    ensures a == b
  {
    CrossAbs(a.num, a.den, b.num, b.den);
    SameDenominators(Abs(a.num), a.den, Abs(b.num), b.den);
    CancelFactor(a.den, a.num, b.num);
  }

  lemma CrossAbs(p: int, q: int, r: int, s: int)
    requires q > 0 && s > 0 && p * s == r * q
    ensures Abs(p) * s == Abs(r) * q
  {
    AbsMul(p, s);
    AbsMul(r, q);
  }

  lemma SameDenominators(p: nat, q: nat, r: nat, s: nat)
    requires q > 0 && s > 0 && Coprime(p, q) && Coprime(r, s) && p * s == r * q
    ensures q == s
  {
    CoprimeDividesOther(p, q, r, s);
    CoprimeDividesOther(r, s, p, q);
    DivisorBounded(q, s);
    DivisorBounded(s, q);
  }

  /** Because operators always normalise, componentwise equality of their
      results is equality of values; comparing with an int `n` holds exactly
      when the value is `n`; `!=` is the opposite of each. */
  lemma EqualityIsValueEquality(a: Fraction, b: Fraction, n: int)
    requires Reduced(a) && Reduced(b)
    ensures Equal(a, b) <==> Value(a) == Value(b)
    ensures EqualInt(a, n) <==> Value(a) == n as real
    ensures NotEqual(a, b) <==> Value(a) != Value(b)
    ensures NotEqualInt(a, n) <==> Value(a) != n as real
  {
    if Value(a) == Value(b) {
      ReducedUnique(a, b);
    }
    if Value(a) == n as real {
      WholeIsReduced(n);
      ReducedUnique(a, Fraction(n, 1));
    }
  }

  /** An integer written over 1 is in lowest terms. */
  lemma WholeIsReduced(n: int)
    ensures Reduced(Fraction(n, 1))
  {
    forall d | Divides(d, Abs(n)) && Divides(d, 1)
      ensures d == 1
    {
      DivisorBounded(d, 1);
    }
  }

  /** Fraction(6,4) == Fraction(3,2): both normalise to 3/2. */
  lemma SixQuartersEqualThreeHalves()
    ensures Make(6, 4).Ok? && Make(3, 2).Ok?
    ensures Equal(Make(6, 4).value, Make(3, 2).value)
    ensures Make(6, 4).value == Fraction(3, 2)
  {
    var a, b := Make(6, 4).value, Make(3, 2).value;
    assert Value(a) == Value(Fraction(3, 2));
    assert Gcd(3, 2) == 1;
    CoprimeIffGcdOne(3, 2);
    ReducedUnique(a, Fraction(3, 2));
    ReducedUnique(b, Fraction(3, 2));
  }

  /** (a + b) - b == a: structural, because every result is normalised. */
  lemma AddSubRoundTrip(a: Fraction, b: Fraction)
    requires Reduced(a) && Valid(b)
    ensures Sub(Add(a, b), b) == a
  {
    ReducedUnique(Sub(Add(a, b), b), a);
  }

  /** -(-a) == a for every normalised fraction. */
  lemma NegNegRoundTrip(a: Fraction)
    requires Reduced(a)
    ensures Neg(Neg(a)) == a
  {
    ReducedUnique(Neg(Neg(a)), a);
  }

  /** (a * b) / b == a whenever b is non-zero. */
  lemma MulDivRoundTrip(a: Fraction, b: Fraction)
    requires Reduced(a) && Valid(b) && b.num != 0
    ensures Div(Mul(a, b), b) == Ok(a)
  {
    var m := Mul(a, b);
    NonZeroValue(b);
    var d := Div(m, b);
    CancelReal(Value(a), Value(b));
    ReducedUnique(d.value, a);
  }

  lemma NonZeroValue(f: Fraction)
    requires Valid(f)
    ensures Value(f) == 0.0 <==> f.num == 0
  {
  }

  lemma CancelReal(x: real, y: real)
    requires y != 0.0
    ensures (x * y) / y == x
  {
  }

  // ---------------------------------------------------------------------
  // Orderings
  // ---------------------------------------------------------------------

  /** The C# expression `f.num / f.den` on ints: the value truncated toward zero. */
  function Trunc(f: Fraction): int
    requires Valid(f)
  {
    CsDiv(f.num, f.den)
  }

  /** `a < b`, `a <= b`, `a > b`, `a >= b` between fractions: comparisons of
      the truncated quotients. */
  predicate Lt(a: Fraction, b: Fraction)
    requires Valid(a) && Valid(b)
  {
    Trunc(a) < Trunc(b)
  }

  predicate Le(a: Fraction, b: Fraction)
    requires Valid(a) && Valid(b)
  {
    Trunc(a) <= Trunc(b)
  }

  predicate Gt(a: Fraction, b: Fraction)
    requires Valid(a) && Valid(b)
  {
    Trunc(a) > Trunc(b)
  }

  predicate Ge(a: Fraction, b: Fraction)
    requires Valid(a) && Valid(b)
  {
    Trunc(a) >= Trunc(b)
  }

  /** The overloads against a `double`: the truncated quotient is compared
      with the number. */
  predicate LtNumber(a: Fraction, x: real)
    requires Valid(a)
  {
    (Trunc(a) as real) < x
  }

  predicate LeNumber(a: Fraction, x: real)
    requires Valid(a)
  {
    (Trunc(a) as real) <= x
  }

  predicate GtNumber(a: Fraction, x: real)
    requires Valid(a)
  {
    (Trunc(a) as real) > x
  }

  predicate GeNumber(a: Fraction, x: real)
    requires Valid(a)
  {
    (Trunc(a) as real) >= x
  }

  /** The truncated quotient is the value rounded toward zero. */
  lemma TruncBounds(f: Fraction)
    requires Valid(f)
    ensures f.num >= 0 ==> Trunc(f) >= 0 && (Trunc(f) as real) <= Value(f) < (Trunc(f) as real) + 1.0
    ensures f.num < 0 ==> Trunc(f) <= 0 && (Trunc(f) as real) - 1.0 < Value(f) <= (Trunc(f) as real)
  {
    TruncatedDivision(f.num, f.den);
    var t, m := Trunc(f), CsRem(f.num, f.den);
    ValueSplit(f.num, t, f.den, m);
    UnitBounds(m, f.den);
  }

  /** x/d == t + m/d when x == t*d + m. */
  lemma ValueSplit(x: int, t: int, d: int, m: int)
    requires d > 0 && x == t * d + m
    ensures x as real / d as real == t as real + m as real / d as real
  {
    CastMul(t, d);
    var T, D, M := t as real, d as real, m as real;
    assert x as real == T * D + M;
    assert (T * D + M) / D == T + M / D;
  }

  lemma UnitBounds(m: int, d: int)
    requires d > 0 && Abs(m) < d
    ensures -1.0 < m as real / d as real < 1.0
    ensures m >= 0 ==> m as real / d as real >= 0.0
    ensures m <= 0 ==> m as real / d as real <= 0.0
  {
  }

  /**
   * The orderings are sound but coarse: `<` between truncated quotients
   * implies `<` between values, and `<=` between values implies `<=`
   * between truncated quotients, but values inside the same unit interval
   * compare as equal. `>` and `>=` are the mirrored `<` and `<=`.
   */
  lemma OrderingsCompareTruncatedValues(a: Fraction, b: Fraction)
    requires Valid(a) && Valid(b)
    ensures Lt(a, b) ==> Value(a) < Value(b)
    ensures Value(a) <= Value(b) ==> Le(a, b)
    ensures Gt(a, b) <==> Lt(b, a)
    ensures Ge(a, b) <==> Le(b, a)
    ensures Le(a, b) <==> !Lt(b, a)
  {
    TruncLtSound(a, b);
    TruncLtSound(b, a);
  }

  lemma TruncLtSound(a: Fraction, b: Fraction)
    requires Valid(a) && Valid(b)
    ensures Trunc(a) < Trunc(b) ==> Value(a) < Value(b)
  {
    TruncBounds(a);
    TruncBounds(b);
  }

  /** With the truncating comparison, 1/2 < 3/4 is false (both truncate to
      0), 3/4 <= 1/2 is true, and 1/2 < 0.25 is true. */
  lemma TruncatedComparisonCounterexample()
    ensures Value(Fraction(1, 2)) < Value(Fraction(3, 4))
    ensures !Lt(Fraction(1, 2), Fraction(3, 4))
    ensures Le(Fraction(3, 4), Fraction(1, 2))
    ensures LtNumber(Fraction(1, 2), 0.25) && Value(Fraction(1, 2)) > 0.25
  {
  }

  /** The comparison of values by cross-multiplication. */
  predicate Less(a: Fraction, b: Fraction)
    requires Valid(a) && Valid(b)
  {
    a.num * b.den < b.num * a.den
  }

  /** Cross-multiplication orders fractions exactly as their values, and on
      reduced fractions exactly one of a < b, a == b, b < a holds. */
  lemma CrossOrderIsValueOrder(a: Fraction, b: Fraction)
    requires Valid(a) && Valid(b)
    ensures Less(a, b) <==> Value(a) < Value(b)
    ensures Reduced(a) && Reduced(b) ==>
      (Less(a, b) || a == b || Less(b, a)) &&
      !(Less(a, b) && Less(b, a)) &&
      (a == b ==> !Less(a, b))
  {
    CrossValue(a.num, a.den, b.num, b.den);
    CrossValue(b.num, b.den, a.num, a.den);
    if Reduced(a) && Reduced(b) && !Less(a, b) && !Less(b, a) {
      ReducedUniqueCross(a, b);
    }
  }

  // ---------------------------------------------------------------------
  // Abs and ToString
  // ---------------------------------------------------------------------

  /** `Abs()`: a normalising construction from |num| and den, so the
      numerator is non-negative and a reduced fraction keeps its denominator. */
  function Absolute(a: Fraction): (r: Fraction)
    requires Valid(a)
    ensures Reduced(r) && r.num >= 0
    ensures Value(r) == if Value(a) < 0.0 then -Value(a) else Value(a)
    ensures Reduced(a) ==> r == Fraction(Abs(a.num), a.den)
  {
    var r := Make(Abs(a.num), a.den).value;
    AbsoluteFacts(a, r);
    r
  }

  lemma AbsoluteFacts(a: Fraction, r: Fraction)
    requires Valid(a) && Reduced(r) && Value(r) == Abs(a.num) as real / a.den as real
    ensures r.num >= 0
    ensures Value(r) == if Value(a) < 0.0 then -Value(a) else Value(a)
    ensures Reduced(a) ==> r == Fraction(Abs(a.num), a.den)
  {
    if Reduced(a) {
      ReducedUnique(r, Fraction(Abs(a.num), a.den));
    }
  }

  /** `ToString()`: "num" when the denominator is 1, otherwise "num/den". */
  function ToString(f: Fraction): string
  {
    if f.den == 1 then IntToString(f.num) else IntToString(f.num) + "/" + IntToString(f.den)
  }

  /** The first position of `c` in `s`, if any. */
  function IndexOf(s: string, c: char): (r: Option<nat>)
    ensures r.None? <==> c !in s
    ensures r.Some? ==> r.value < |s| && s[r.value] == c && c !in s[..r.value]
  {
    if |s| == 0 then None
    else if s[0] == c then Some(0)
    else
      match IndexOf(s[1..], c)
      case None => None
      case Some(k) =>
        assert s[..k + 1] == [s[0]] + s[1..][..k];
        Some(k + 1)
  }

  /** Reads the text `ToString` writes. */
  function ParseFraction(s: string): Option<Fraction>
  {
    match IndexOf(s, '/')
    case None =>
      (match ParseInt(s)
       case Some(n) => Some(Fraction(n, 1))
       case None => None)
    case Some(k) =>
      (match (ParseInt(s[..k]), ParseInt(s[k + 1..]))
       case (Some(n), Some(d)) => Some(Fraction(n, d))
       case _ => None)
  }

  /** `ToString` loses nothing: the text reads back as the same fraction,
      so distinct fractions print differently, and a '/' appears exactly
      when the denominator is not 1. */
  lemma ToStringRoundTrip(f: Fraction)
    ensures ParseFraction(ToString(f)) == Some(f)
    ensures '/' in ToString(f) <==> f.den != 1
  {
    IntRoundTrip(f.num);
    IntRoundTrip(f.den);
    var n := IntToString(f.num);
    assert '/' !in n;
    if f.den != 1 {
      var s := ToString(f);
      assert s[..|n|] == n && s[|n|] == '/';
      assert IndexOf(s, '/') == Some(|n|);
      assert s[|n| + 1..] == IntToString(f.den);
    }
  }
}

=== FILE: geometry.dfy ===
/**
 * Plane geometry over exact reals: positions (Unity's `Vector3`), sizes
 * (`Vector2` used as a width and height) and axis-aligned boxes given by
 * their corners (a collider's `bounds.min`/`bounds.max`).
 */
module Geometry {
  datatype Vec3 = Vec3(x: real, y: real, z: real)

  datatype Size = Size(w: real, h: real)

  /** An axis-aligned box by its lower-left and upper-right corners. */
  datatype Box = Box(min: Vec3, max: Vec3)

  const Origin: Vec3 := Vec3(0.0, 0.0, 0.0)

  function Plus(a: Vec3, b: Vec3): (r: Vec3)
    ensures r.x - a.x == b.x && r.y - a.y == b.y && r.z - a.z == b.z
  {
    Vec3(a.x + b.x, a.y + b.y, a.z + b.z)
  }

  /** The displacement from `b` to `a`. */
  function Minus(a: Vec3, b: Vec3): (r: Vec3)
    ensures Plus(b, r) == a
  {
    Vec3(a.x - b.x, a.y - b.y, a.z - b.z)
  }

  /** `Vector3.left * d` and friends: a shift along one axis. */
  function Horizontal(d: real): Vec3 { Vec3(d, 0.0, 0.0) }
  function Vertical(d: real): Vec3 { Vec3(0.0, d, 0.0) }

  function Max(a: real, b: real): (r: real)
    ensures r >= a && r >= b && (r == a || r == b)
  {
    if a >= b then a else b
  }

  function Min(a: real, b: real): (r: real)
    ensures r <= a && r <= b && (r == a || r == b)
  {
    if a <= b then a else b
  }

  predicate NonNegative(s: Size)
  {
    s.w >= 0.0 && s.h >= 0.0
  }

  /** A box of size `s` centred at `c`. */
  function Centred(c: Vec3, s: Size): (b: Box)
    ensures b.max.x - b.min.x == s.w && b.max.y - b.min.y == s.h
    ensures b.min.x + b.max.x == 2.0 * c.x && b.min.y + b.max.y == 2.0 * c.y
  {
    Box(Vec3(c.x - s.w / 2.0, c.y - s.h / 2.0, c.z), Vec3(c.x + s.w / 2.0, c.y + s.h / 2.0, c.z))
  }
}

=== FILE: interaction.dfy ===
/**
 * Dragging a term: classifying the grab on mouse-down, moving the grabbed
 * elements, the per-frame step that keeps the overlapped term in sync and
 * starts the combine and separate previews, the values those previews end
 * on, and the rebound on mouse-up.  The camera is abstracted: a drag
 * supplies the world points its elements move to.
 */
module Interaction {
  import opened Outcomes
  import opened Geometry
  import opened Terms
  import Overlap

  datatype Side = LeftSide | RightSide

  datatype MoveType = Constant | Coefficient | Variable

  /** A term of the scene: the term, the stored (home) position of each of its
      elements, their current positions, the text of its first element and
      the alpha of its texts. */
  datatype Placed = Placed(term: Term, positions: seq<Vec3>, live: seq<Vec3>, text: string, alpha: real)

  predicate WellFormed(p: Placed)
  {
    |p.positions| == ElementCount(p.term) && |p.live| == |p.positions|
  }

  predicate SceneOk(terms: seq<Placed>)
  {
    forall i :: 0 <= i < |terms| ==> WellFormed(terms[i])
  }

  /** Every element of every term is at its stored position. */
  predicate AtRest(terms: seq<Placed>)
  {
    forall i :: 0 <= i < |terms| ==> terms[i].live == terms[i].positions
  }

  /** The drag in progress (`Mover`); the mouse offset is left to the
      camera. */
  datatype Mover = Mover(moveType: MoveType, side: Side, term: nat)

  /** `clickedGo`: the element the mouse holds. */
  function Grabbed(m: MoveType): nat
  {
    if m == Variable then 1 else 0
  }

  /** The elements a drag moves. */
  function Moved(m: MoveType): set<nat>
  {
    match m
    case Constant => {0}
    case Coefficient => {0, 1}
    case Variable => {1}
  }

  predicate MoverOk(terms: seq<Placed>, m: Mover)
  {
    && m.term < |terms| && WellFormed(terms[m.term])
    && (m.moveType == Constant <==> terms[m.term].term.ConstantTerm?)
  }

  /**
   * `EqPartMouseDown` on element `elem` of term `t`: a constant is moved
   * whole; grabbing a variable term's first element moves the coefficient
   * with its variable, grabbing its second moves the variable alone.  The
   * side is the left one exactly when the term's first stored position is
   * left of the origin, and the grabbed element is the one clicked.
   */
  function MouseDown(terms: seq<Placed>, t: nat, elem: nat): (m: Mover)
    requires t < |terms| && WellFormed(terms[t]) && elem < |terms[t].positions|
    ensures m.term == t && MoverOk(terms, m)
    ensures m.moveType == Constant <==> terms[t].term.ConstantTerm?
    ensures m.moveType == Coefficient <==> terms[t].term.VariableTerm? && elem == 0
    ensures m.moveType == Variable <==> terms[t].term.VariableTerm? && elem != 0
    ensures m.side == LeftSide <==> terms[t].positions[0].x < 0.0
    ensures Grabbed(m.moveType) == elem && Grabbed(m.moveType) in Moved(m.moveType)
  {
    var moveType :=
      if terms[t].term.ConstantTerm? then Constant
      else if elem == 0 then Coefficient
      else Variable;
    Mover(moveType, if terms[t].positions[0].x < 0.0 then LeftSide else RightSide, t)
  }

  /** A grab followed by a drag: the clicked element follows the mouse; a
      click on a variable term's coefficient also carries the variable to
      `companion`, and any other click moves the clicked element alone. */
  lemma GrabThenDrag(terms: seq<Placed>, t: nat, elem: nat, target: Vec3, companion: Vec3)
    requires t < |terms| && WellFormed(terms[t]) && elem < |terms[t].positions|
    ensures var r := MouseDrag(terms, Some(MouseDown(terms, t, elem)), target, companion);
      && |r| == |terms| && |r[t].live| == |terms[t].live|
      && r[t].live[elem] == target
      && (terms[t].term.VariableTerm? && elem == 0 ==> r[t].live[1] == companion)
      && (!(terms[t].term.VariableTerm? && elem == 0) ==>
            forall j :: 0 <= j < |terms[t].live| && j != elem ==> r[t].live[j] == terms[t].live[j])
      && forall i :: 0 <= i < |terms| && i != t ==> r[i] == terms[i]
  {
  }

  /**
   * `EqPartMouseDrag`: with no drag in progress nothing moves; otherwise the
   * grabbed element goes to `target` and, for a coefficient, the variable
   * goes to `companion`.  No other element, no stored position and no other
   * term changes.
   */
  function MouseDrag(terms: seq<Placed>, mover: Option<Mover>, target: Vec3, companion: Vec3): (r: seq<Placed>)
    requires mover.Some? ==> MoverOk(terms, mover.value)
    ensures |r| == |terms|
    ensures mover.None? ==> r == terms
    ensures mover.Some? ==>
      var t := mover.value.term; var kind := mover.value.moveType;
      && (forall i :: 0 <= i < |terms| && i != t ==> r[i] == terms[i])
      && r[t].term == terms[t].term && r[t].positions == terms[t].positions
      && r[t].text == terms[t].text && r[t].alpha == terms[t].alpha
      && |r[t].live| == |terms[t].live|
      && r[t].live[Grabbed(kind)] == target
      && (forall j :: 0 <= j < |terms[t].live| && j !in Moved(kind) ==> r[t].live[j] == terms[t].live[j])
      && (kind == Coefficient ==> r[t].live[1] == companion)
  {
    if mover.None? then terms
    else
      var t := mover.value.term;
      var p := terms[t];
      var live :=
        match mover.value.moveType
        case Constant => p.live[0 := target]
        case Coefficient => p.live[0 := target][1 := companion]
        case Variable => p.live[1 := target];
      terms[t := p.(live := live)]
  }

  /** A sequence of drag events with the same mover. */
  function DragMany(terms: seq<Placed>, mover: Option<Mover>, moves: seq<(Vec3, Vec3)>): (r: seq<Placed>)
    requires mover.Some? ==> MoverOk(terms, mover.value)
    ensures |r| == |terms|
    ensures mover.Some? ==> MoverOk(r, mover.value)
    ensures forall i :: 0 <= i < |terms| ==>
      r[i].term == terms[i].term && r[i].positions == terms[i].positions && r[i].text == terms[i].text
      && r[i].alpha == terms[i].alpha && |r[i].live| == |terms[i].live|
    ensures forall i :: 0 <= i < |terms| && (mover.None? || i != mover.value.term) ==> r[i] == terms[i]
    decreases |moves|
  {
    if |moves| == 0 then terms
    else DragMany(MouseDrag(terms, mover, moves[0].0, moves[0].1), mover, moves[1..])
  }

  // ---------------------------------------------------------------------
  // The per-frame step
  // ---------------------------------------------------------------------

  /** The interaction state: the drag in progress, the term under it
      (`overlapped`) and the terms shown highlighted. */
  datatype Session = Session(mover: Option<Mover>, overlapped: Option<nat>, highlighted: set<nat>)

  /** The previews a step starts. */
  datatype Effect = Separate(mover: Mover, drop: nat) | Combine(mover: Mover, drop: nat)

  function AsSet(o: Option<nat>): set<nat>
  {
    if o.Some? then {o.value} else {}
  }

  /** Exactly the overlapped term is highlighted. */
  predicate HighlightInSync(s: Session)
  {
    s.highlighted == AsSet(s.overlapped)
  }

  /** `colorOverlap(newOlap)`: the old target's highlight is cleared and the
      new one's set. */
  function ColorOverlap(s: Session, newOlap: Option<nat>): (r: Session)
    ensures r.mover == s.mover && r.overlapped == newOlap
    ensures HighlightInSync(s) ==> HighlightInSync(r)
  {
    s.(overlapped := newOlap, highlighted := (s.highlighted - AsSet(s.overlapped)) + AsSet(newOlap))
  }

  function IsConstant(terms: seq<Placed>, t: nat): bool
  {
    t < |terms| && terms[t].term.ConstantTerm?
  }

  /**
   * `Update` given the picker's answer `olap`, as written.  A new target
   * separates from the old one (if any), becomes the highlighted
   * `overlapped`, and is combined with when the mover and it are both
   * constants; losing the target separates from it.  Afterwards
   * `overlapped` is the picker's answer.
   */
  function TickAsWritten(terms: seq<Placed>, s: Session, olap: Option<nat>): (r: (Session, seq<Effect>))
    ensures s.mover.None? ==> r == (s, [])
    ensures s.mover.Some? ==> r.0.mover == s.mover && r.0.overlapped == olap
    ensures HighlightInSync(s) ==> HighlightInSync(r.0)
    ensures (exists e :: e in r.1 && e.Separate?) <==> s.mover.Some? && s.overlapped.Some? && olap != s.overlapped
    ensures (exists e :: e in r.1 && e.Combine?) <==>
      s.mover.Some? && olap.Some? && olap != s.overlapped && IsConstant(terms, s.mover.value.term) && IsConstant(terms, olap.value)
    ensures forall e :: e in r.1 ==> Some(e.mover) == s.mover
    ensures forall e :: e in r.1 && e.Separate? ==> Some(e.drop) == s.overlapped
    ensures forall e :: e in r.1 && e.Combine? ==> Some(e.drop) == olap
    ensures |r.1| <= 2 && (|r.1| == 2 ==> r.1[0].Separate? && r.1[1].Combine?)
  {
    if s.mover.None? then (s, [])
    else
      var m := s.mover.value;
      if olap.Some? && olap != s.overlapped then
        var separate := if s.overlapped.Some? then [Separate(m, s.overlapped.value)] else [];
        var combine := if IsConstant(terms, m.term) && IsConstant(terms, olap.value) then [Combine(m, olap.value)] else [];
        var es := separate + combine;
        assert forall e :: e in es <==> e in separate || e in combine;
        assert separate != [] ==> es[0] in es && es[0].Separate?;
        assert combine != [] ==> es[|es| - 1] in es && es[|es| - 1].Combine?;
        (ColorOverlap(s, olap), es)
      else if olap.None? && s.overlapped.Some? then
        var es := [Separate(m, s.overlapped.value)];
        assert es[0] in es;
        (ColorOverlap(s, None), es)
      else (s, [])
  }

  /** The target a combine preview is showing: the overlapped term when the
      mover and it are both constants. */
  function Pending(terms: seq<Placed>, s: Session): Option<nat>
  {
    if s.mover.Some? && s.overlapped.Some? && IsConstant(terms, s.mover.value.term) && IsConstant(terms, s.overlapped.value)
    then s.overlapped else None
  }

  /**
   * `Update` with separation only undoing a combine: the old target is
   * separated from only when a combine preview is showing on it.  Everything
   * else is as written.
   */
  function Tick(terms: seq<Placed>, s: Session, olap: Option<nat>): (r: (Session, seq<Effect>))
    ensures s.mover.None? ==> r == (s, [])
    ensures s.mover.Some? ==> r.0.mover == s.mover && r.0.overlapped == olap
    ensures HighlightInSync(s) ==> HighlightInSync(r.0)
    ensures (exists e :: e in r.1 && e.Separate?) <==> Pending(terms, s).Some? && olap != s.overlapped
    ensures (exists e :: e in r.1 && e.Combine?) <==>
      s.mover.Some? && olap.Some? && olap != s.overlapped && IsConstant(terms, s.mover.value.term) && IsConstant(terms, olap.value)
    ensures forall e :: e in r.1 ==> Some(e.mover) == s.mover
    ensures forall e :: e in r.1 && e.Separate? ==> Some(e.drop) == s.overlapped
    ensures forall e :: e in r.1 && e.Combine? ==> Some(e.drop) == olap
  {
    if s.mover.None? then (s, [])
    else
      var m := s.mover.value;
      if olap.Some? && olap != s.overlapped then
        var separate := if Pending(terms, s).Some? then [Separate(m, s.overlapped.value)] else [];
        var combine := if IsConstant(terms, m.term) && IsConstant(terms, olap.value) then [Combine(m, olap.value)] else [];
        var es := separate + combine;
        assert forall e :: e in es <==> e in separate || e in combine;
        assert separate != [] ==> es[0] in es && es[0].Separate?;
        assert combine != [] ==> es[|es| - 1] in es && es[|es| - 1].Combine?;
        (ColorOverlap(s, olap), es)
      else if olap.None? && s.overlapped.Some? then
        var es := if Pending(terms, s).Some? then [Separate(m, s.overlapped.value)] else [];
        assert es != [] ==> es[0] in es;
        (ColorOverlap(s, None), es)
      else (s, [])
  }

  /** The corrected step agrees with the step as written on the session, and
      on every combine it starts. */
  lemma TickAgreesWithAsWritten(terms: seq<Placed>, s: Session, olap: Option<nat>)
    ensures Tick(terms, s, olap).0 == TickAsWritten(terms, s, olap).0
    ensures forall e: Effect :: e.Combine? ==> (e in Tick(terms, s, olap).1 <==> e in TickAsWritten(terms, s, olap).1)
  {
  }

  /** How the previews pair up: a combine may start only when none is
      showing, a separation only undoes the combine that is showing.  None
      means the sequence breaks that rule. */
  function Track(es: seq<Effect>, open: Option<nat>): Option<Option<nat>>
  {
    if |es| == 0 then Some(open)
    else match es[0]
      case Combine(_, d) => if open.None? then Track(es[1..], Some(d)) else None
      case Separate(_, d) => if open == Some(d) then Track(es[1..], None) else None
  }

  lemma {:induction false} TrackConcat(a: seq<Effect>, b: seq<Effect>, open: Option<nat>)
    ensures Track(a + b, open) == if Track(a, open).None? then None else Track(b, Track(a, open).value)
  {
    if |a| > 0 {
      assert (a + b)[0] == a[0];
      assert (a + b)[1..] == a[1..] + b;
      match a[0]
      case Combine(_, d) => TrackConcat(a[1..], b, Some(d));
      case Separate(_, d) => TrackConcat(a[1..], b, None);
    } else {
      assert a + b == b;
    }
  }

  /** One corrected step keeps the previews paired, and what is left showing
      is the session's pending combine. */
  lemma TickPairsPreviews(terms: seq<Placed>, s: Session, olap: Option<nat>)
    ensures Track(Tick(terms, s, olap).1, Pending(terms, s)) == Some(Pending(terms, Tick(terms, s, olap).0))
  {
    if s.mover.Some? && olap.Some? && olap != s.overlapped {
      var m := s.mover.value;
      var separate := if Pending(terms, s).Some? then [Separate(m, s.overlapped.value)] else [];
      var combine := if IsConstant(terms, m.term) && IsConstant(terms, olap.value) then [Combine(m, olap.value)] else [];
      assert Tick(terms, s, olap).1 == separate + combine;
      TrackConcat(separate, combine, Pending(terms, s));
    }
  }

  /** A run of corrected steps with the picker's answers `olaps`. */
  function Run(terms: seq<Placed>, s: Session, olaps: seq<Option<nat>>): (Session, seq<Effect>)
    decreases |olaps|
  {
    if |olaps| == 0 then (s, [])
    else
      var (s2, es) := Tick(terms, s, olaps[0]);
      var (s3, rest) := Run(terms, s2, olaps[1..]);
      (s3, es + rest)
  }

  /** Over any run of corrected steps every separation undoes the combine
      showing at that moment and no combine starts over another. */
  lemma {:induction false} RunPairsPreviews(terms: seq<Placed>, s: Session, olaps: seq<Option<nat>>)
    ensures Track(Run(terms, s, olaps).1, Pending(terms, s)) == Some(Pending(terms, Run(terms, s, olaps).0))
    decreases |olaps|
  {
    if |olaps| > 0 {
      var (s2, es) := Tick(terms, s, olaps[0]);
      TickPairsPreviews(terms, s, olaps[0]);
      RunPairsPreviews(terms, s2, olaps[1..]);
      TrackConcat(es, Run(terms, s2, olaps[1..]).1, Pending(terms, s));
    }
  }

  /** As written, grabbing a variable term's coefficient (term 1), moving it
      over a constant (term 0) and off again separates the two although they
      were never combined. */
  lemma SeparationWithoutCombine()
    ensures var terms := [Placed(NewConstant(3), [Origin], [Origin], " + 3", 1.0),
                          Placed(NewVariable("x", 2), [Origin, Origin], [Origin, Origin], " + 2", 1.0)];
            var s0 := Session(Some(Mover(Coefficient, RightSide, 1)), None, {});
            var s1 := TickAsWritten(terms, s0, Some(0)).0;
            && TickAsWritten(terms, s0, Some(0)).1 == []
            && TickAsWritten(terms, s1, None).1 == [Separate(Mover(Coefficient, RightSide, 1), 0)]
            && Track(TickAsWritten(terms, s1, None).1, Pending(terms, s1)) == None
            && Tick(terms, s1, None).1 == []
  {
    var terms := [Placed(NewConstant(3), [Origin], [Origin], " + 3", 1.0),
                  Placed(NewVariable("x", 2), [Origin, Origin], [Origin, Origin], " + 2", 1.0)];
    var s0 := Session(Some(Mover(Coefficient, RightSide, 1)), None, {});
    assert !IsConstant(terms, 1);
    var s1 := TickAsWritten(terms, s0, Some(0)).0;
    assert s1.overlapped == Some(0) && s1.mover == s0.mover;
    assert Pending(terms, s1) == None;
  }

  // ---------------------------------------------------------------------
  // Where the previews end
  // ---------------------------------------------------------------------

  /** `signFlip`: the grabbed term's first element is on the other side of
      the origin from its stored position. */
  function SignFlip(p: Placed): bool
    requires |p.positions| > 0 && |p.live| > 0
  {
    p.positions[0].x * p.live[0].x < 0.0
  }

  lemma SignFlipIffCrossed(p: Placed)
    requires |p.positions| > 0 && |p.live| > 0
    ensures SignFlip(p) <==>
      (p.positions[0].x < 0.0 && p.live[0].x > 0.0) || (p.positions[0].x > 0.0 && p.live[0].x < 0.0)
  {
    var a, b := p.positions[0].x, p.live[0].x;
    if a < 0.0 && b < 0.0 { assert a * b == (-a) * (-b); }
    if a > 0.0 && b > 0.0 { assert a * b > 0.0; }
  }

  /** The value a combine preview ends on: the target's value plus the
      mover's, the mover's negated when it has crossed the equals sign. */
  function CombinedValue(terms: seq<Placed>, m: Mover, drop: nat): (v: int)
    requires m.term < |terms| && WellFormed(terms[m.term]) && drop < |terms|
    ensures SignFlip(terms[m.term]) ==> v == GetValue(terms[drop].term) - GetValue(terms[m.term].term)
    ensures !SignFlip(terms[m.term]) ==> v == GetValue(terms[drop].term) + GetValue(terms[m.term].term)
  {
    GetValue(terms[drop].term) + GetValue(terms[m.term].term) * (if SignFlip(terms[m.term]) then -1 else 1)
  }

  predicate EffectOk(terms: seq<Placed>, e: Effect)
  {
    e.mover.term < |terms| && WellFormed(terms[e.mover.term]) && e.drop < |terms|
  }

  /**
   * The end state of `CombineTerms` / `SeparateTerms`: the target's first
   * text shows the combined value (combine) or the target's own value
   * (separate), always with its sign, and the mover's texts are faded out
   * (combine) or in (separate).  No term's value, stored position or
   * current position changes.
   */
  function ApplyEffect(terms: seq<Placed>, e: Effect): (r: seq<Placed>)
    requires EffectOk(terms, e)
    ensures |r| == |terms| && (SceneOk(terms) ==> SceneOk(r))
    ensures forall i :: 0 <= i < |terms| ==>
      r[i].term == terms[i].term && r[i].positions == terms[i].positions && r[i].live == terms[i].live
    ensures forall i :: 0 <= i < |terms| && i != e.drop && i != e.mover.term ==> r[i] == terms[i]
    ensures e.Combine? ==>
      ReadDisplayed(r[e.drop].text, false) == Some(CombinedValue(terms, e.mover, e.drop)) && r[e.mover.term].alpha == 0.0
    ensures e.Separate? ==>
      ReadDisplayed(r[e.drop].text, false) == Some(GetValue(terms[e.drop].term)) && r[e.mover.term].alpha == 1.0
    ensures e.Combine? ==> r[e.drop].text == ConstantText(CombinedValue(terms, e.mover, e.drop), false)
    ensures e.Separate? ==> r[e.drop].text == ConstantText(GetValue(terms[e.drop].term), false)
  {
    var value := if e.Combine? then CombinedValue(terms, e.mover, e.drop) else GetValue(terms[e.drop].term);
    ConstantTextRoundTrip(value, false);
    var shown := terms[e.drop := terms[e.drop].(text := ConstantText(value, false))];
    shown[e.mover.term := shown[e.mover.term].(alpha := if e.Combine? then 0.0 else 1.0)]
  }

  /** Separating undoes combining: a target that showed its value with its
      sign, and a mover that was fully visible, come back exactly. */
  lemma CombineThenSeparate(terms: seq<Placed>, m: Mover, drop: nat)
    requires EffectOk(terms, Combine(m, drop)) && drop != m.term
    requires terms[drop].text == ConstantText(GetValue(terms[drop].term), false) && terms[m.term].alpha == 1.0
    ensures EffectOk(ApplyEffect(terms, Combine(m, drop)), Separate(m, drop))
    ensures ApplyEffect(ApplyEffect(terms, Combine(m, drop)), Separate(m, drop)) == terms
  {
    var r := ApplyEffect(ApplyEffect(terms, Combine(m, drop)), Separate(m, drop));
    assert forall i :: 0 <= i < |terms| ==> r[i] == terms[i];
  }

  /** The previews never drop the sign: the first term of a side, shown as
      "5", comes back from a combine and separation as " + 5". */
  lemma SeparationRestoresSign()
    ensures var terms := [Placed(NewConstant(5), [Origin], [Origin], ConstantText(5, true), 1.0),
                          Placed(NewConstant(2), [Origin], [Origin], ConstantText(2, false), 1.0)];
            var m := Mover(Constant, RightSide, 1);
            && terms[0].text == "5"
            && ApplyEffect(ApplyEffect(terms, Combine(m, 0)), Separate(m, 0))[0].text == " + 5"
  {
    assert Decimal.NatToString(5) == "5";
  }

  // ---------------------------------------------------------------------
  // Release
  // ---------------------------------------------------------------------

  /** The final snap of `AnimateRebound`: every element of the term back at
      its stored position. */
  function Rebound(p: Placed): (r: Placed)
    ensures r.live == p.positions && r.positions == p.positions
    ensures r.term == p.term && r.text == p.text && r.alpha == p.alpha
  {
    p.(live := p.positions)
  }

  /**
   * `EqPartMouseUp` on term `t`: the drag ends and the term rebounds to its
   * stored positions.  The overlapped term and its highlight are kept.
   */
  function MouseUp(terms: seq<Placed>, s: Session, t: nat): (r: (Session, seq<Placed>))
    requires t < |terms|
    ensures r.0 == s.(mover := None)
    ensures |r.1| == |terms| && r.1[t].live == terms[t].positions
    ensures forall i :: 0 <= i < |terms| ==> r.1[i].positions == terms[i].positions && r.1[i].term == terms[i].term
    ensures forall i :: 0 <= i < |terms| && i != t ==> r.1[i] == terms[i]
  {
    (s.(mover := None), terms[t := Rebound(terms[t])])
  }

  /** Dragging a term about and letting go puts the scene back as it was:
      every element of every term ends at its stored position. */
  lemma DragThenRelease(terms: seq<Placed>, s: Session, m: Mover, moves: seq<(Vec3, Vec3)>)
    requires MoverOk(terms, m) && AtRest(terms)
    ensures MouseUp(DragMany(terms, Some(m), moves), s, m.term).1 == terms
  {
    var dragged := DragMany(terms, Some(m), moves);
    var released := MouseUp(dragged, s, m.term).1;
    assert forall i :: 0 <= i < |terms| ==> released[i] == terms[i];
  }

  /** After the release the next steps start nothing until a new drag: the
      session keeps the old target, highlighted, with no mover. */
  lemma ReleaseStopsSteps(terms: seq<Placed>, s: Session, t: nat, olap: Option<nat>)
    requires t < |terms|
    ensures var s2 := MouseUp(terms, s, t).0;
      Tick(terms, s2, olap) == (s2, []) && s2.overlapped == s.overlapped && s2.highlighted == s.highlighted
  {
  }

  // ---------------------------------------------------------------------
  // The whole frame
  // ---------------------------------------------------------------------

  /** `Update` with the corrected picker: the grabbed element's box and the
      physics engine's hits supply the picker's answer. */
  function Step(terms: seq<Placed>, s: Session, grabbedBox: Box, hits: seq<Overlap.Hit>): (r: (Session, seq<Effect>))
    ensures s.mover.Some? ==> r.0.overlapped == Overlap.Pick(grabbedBox, s.mover.value.term, hits)
    ensures s.mover.Some? ==> r.0.overlapped != Some(s.mover.value.term)
    ensures s.mover.None? ==> r == (s, [])
  {
    if s.mover.None? then (s, [])
    else
      var olap := Overlap.Pick(grabbedBox, s.mover.value.term, hits);
      Overlap.PickIsWinner(grabbedBox, s.mover.value.term, hits);
      Tick(terms, s, olap)
  }

  /** `Update` as written: an exception from the picker aborts the frame. */
  function StepAsWritten(terms: seq<Placed>, s: Session, grabbedBox: Box, hits: seq<Overlap.Hit>): (r: Result<(Session, seq<Effect>)>)
    ensures s.mover.None? ==> r == Ok((s, []))
    ensures s.mover.Some? ==> (r.Err? <==> Overlap.OverlappedAsWritten(grabbedBox, hits).Err?)
    ensures s.mover.Some? && r.Ok? ==> Overlap.OverlappedAsWritten(grabbedBox, hits) == Ok(r.value.0.overlapped)
  {
    if s.mover.None? then Ok((s, []))
    else
      match Overlap.OverlappedAsWritten(grabbedBox, hits)
      case Err(e) => Err(e)
      case Ok(olap) => Ok(TickAsWritten(terms, s, olap))
  }
}

=== FILE: intmath.dfy ===
/**
 * Integer arithmetic as C# performs it (division truncating toward zero),
 * and the greatest-common-divisor loop used to reduce fractions, with the
 * number theory needed to reason about both.
 */
module IntMath {

  function Abs(x: int): nat
  {
    if x < 0 then -x else x
  }

  /** C#'s `a / b` on int: the quotient truncated toward zero. */
  function CsDiv(a: int, b: int): int
    requires b != 0
  {
    var m := Abs(a) / Abs(b);
    if (a < 0) == (b < 0) then m else -m
  }

  /** C#'s `a % b` on int: the remainder of the truncated division. */
  function CsRem(a: int, b: int): int
    requires b != 0
  {
    a - b * CsDiv(a, b)
  }

  /** Truncated division splits `a` into a multiple of `b` plus a remainder
      that is smaller than `b` in magnitude and carries the sign of `a`. */
  lemma TruncatedDivision(a: int, b: int)
    requires b != 0
    ensures a == CsDiv(a, b) * b + CsRem(a, b)
    ensures Abs(CsRem(a, b)) < Abs(b)
    ensures a >= 0 ==> CsRem(a, b) >= 0
    ensures a <= 0 ==> CsRem(a, b) <= 0
    ensures Abs(CsDiv(a, b)) * Abs(b) <= Abs(a)
  {
    var A: int, B: int := Abs(a), Abs(b);
    var m: int, r: int := A / B, A % B;
    EuclidOnMagnitudes(A, B, m, r);
    var q := CsDiv(a, b);
    if (a < 0) == (b < 0) {
      assert q == m;
    } else {
      assert q == -m;
    }
    QuotientTimesSigned(q, m, b, B, (a < 0) == (b < 0));
    assert Abs(q) == m;
  }

  lemma EuclidOnMagnitudes(A: int, B: int, m: int, r: int)
    requires A >= 0 && B > 0 && m == A / B && r == A % B
    ensures A == m * B + r && 0 <= r < B && m >= 0 && m * B >= 0
  {
    MulNonNeg(m, B);
  }

  lemma QuotientTimesSigned(q: int, m: int, b: int, B: int, same: bool)
    requires B == Abs(b) && B > 0
    requires q == (if same then m else -m)
    ensures q * b == (if same == (b < 0) then -(m * B) else m * B)
  {
    if b < 0 {
      assert q * b == -(q * B);
    }
    if !same {
      assert q * B == -(m * B);
    }
  }

  lemma MulNonNeg(x: int, y: int)
    requires x >= 0 && y >= 0
    ensures x * y >= 0
  {
  }

  /** `d` divides `n` (and is a proper, positive divisor). */
  predicate Divides(d: int, n: int)
  {
    d > 0 && n % d == 0
  }

  /** Euclidean division is unique. */
  lemma DivModUnique(x: int, m: int, q: int, r: int)
    requires m > 0 && x == m * q + r && 0 <= r < m
    ensures x / m == q && x % m == r
  {
    var q', r' := x / m, x % m;
    assert m * q + r == m * q' + r';
    SmallMultiple(m, q - q', r' - r);
  }

  /** The only multiple of `m` strictly between `-m` and `m` is 0. */
  lemma SmallMultiple(m: int, k: int, p: int)
    requires m > 0 && m * k == p && -m < p < m
    ensures k == 0
  {
    if k >= 1 {
      MulNonNeg(m, k - 1);
    } else if k <= -1 {
      MulNonNeg(m, -k - 1);
    }
  }

  lemma MultipleDivides(g: int, k: int)
    requires g > 0
    ensures Divides(g, g * k) && (g * k) / g == k
  {
    DivModUnique(g * k, g, k, 0);
  }

  /** A divisor of `x` and `y` divides every `x + k * y`. */
  lemma DividesCombination(g: int, x: int, y: int, k: int)
    requires Divides(g, x) && Divides(g, y)
    ensures Divides(g, x + k * y)
  {
    var p, q := x / g, y / g;
    assert x == g * p && y == g * q;
    assert x + k * y == g * (p + k * q);
    MultipleDivides(g, p + k * q);
  }

  /** An exact C# division really is exact. */
  lemma ExactCsDiv(a: int, g: int)
    requires Divides(g, a)
    ensures CsDiv(a, g) * g == a
    ensures Abs(CsDiv(a, g)) == Abs(a) / g
  {
    DividesCombination(g, 0, a, -1);
    assert Divides(g, Abs(a));
    assert Abs(a) == g * (Abs(a) / g);
  }

  /** A positive multiple is at least as large as the divisor. */
  lemma DivisorBounded(d: int, n: int)
    requires Divides(d, n) && n > 0
    ensures d <= n
  {
    var k := n / d;
    assert n == d * k;
    if k <= 0 {
      MulNonNeg(d, -k);
    } else {
      MulNonNeg(d, k - 1);
      assert n == d * (k - 1) + d;
    }
  }

  /**
   * The `GCD` helper of the fraction type: while both arguments are
   * non-zero, replace the larger by its remainder modulo the smaller; then
   * return `a | b`, which is the argument that is not zero (or 0 when both
   * are).
   */
  function Gcd(a: nat, b: nat): nat
    decreases a + b
  {
    if a == 0 || b == 0 then (if a == 0 then b else a)
    else if a > b then Gcd(a % b, b)
    else Gcd(a, b % a)
  }

  /** A common divisor of `x % y` and `y` divides `x`, and conversely. */
  lemma RemainderStep(g: int, x: nat, y: nat)
    requires y > 0
    ensures Divides(g, x % y) && Divides(g, y) ==> Divides(g, x)
    ensures Divides(g, x) && Divides(g, y) ==> Divides(g, x % y)
  {
    var k := x / y;
    assert x == x % y + k * y;
    if Divides(g, x % y) && Divides(g, y) {
      DividesCombination(g, x % y, y, k);
    }
    if Divides(g, x) && Divides(g, y) {
      DividesCombination(g, x, y, -k);
    }
  }

  /** `Gcd` terminates with a common divisor of its arguments that every
      common divisor divides; it is positive unless both arguments are 0,
      and `Gcd(0, b) == b`. */
  lemma GcdIsGreatestCommonDivisor(a: nat, b: nat, d: int)
    ensures Gcd(0, b) == b
    ensures a == 0 && b == 0 ==> Gcd(a, b) == 0
    ensures a != 0 || b != 0 ==> Gcd(a, b) > 0 && Divides(Gcd(a, b), a) && Divides(Gcd(a, b), b)
    ensures Divides(d, a) && Divides(d, b) ==> Divides(d, Gcd(a, b))
  {
    if a != 0 || b != 0 {
      GcdDivides(a, b);
    }
    if Divides(d, a) && Divides(d, b) {
      GcdGreatest(a, b, d);
    }
  }

  lemma {:induction false} GcdDivides(a: nat, b: nat)
    requires a != 0 || b != 0
    ensures Divides(Gcd(a, b), a) && Divides(Gcd(a, b), b)
    decreases a + b
  {
    if a == 0 {
      MultipleDivides(b, 0);
      MultipleDivides(b, 1);
    } else if b == 0 {
      MultipleDivides(a, 0);
      MultipleDivides(a, 1);
    } else if a > b {
      GcdDivides(a % b, b);
      RemainderStep(Gcd(a % b, b), a, b);
    } else {
      GcdDivides(a, b % a);
      RemainderStep(Gcd(a, b % a), b, a);
    }
  }

  /** Every common divisor of `a` and `b` divides `Gcd(a, b)`. */
  lemma {:induction false} GcdGreatest(a: nat, b: nat, d: int)
    requires Divides(d, a) && Divides(d, b)
    ensures Divides(d, Gcd(a, b))
    decreases a + b
  {
    if a == 0 || b == 0 {
    } else if a > b {
      RemainderStep(d, a, b);
      GcdGreatest(a % b, b, d);
    } else {
      RemainderStep(d, b, a);
      GcdGreatest(a, b % a, d);
    }
  }

  lemma MulStrictMono(x: int, y: int, s: int)
    requires 0 <= x < y && s > 0
    ensures x * s < y * s
  {
    MulNonNeg(y - x - 1, s);
    assert y * s == x * s + (y - x - 1) * s + s;
  }

  /** Scaling both operands scales the remainder. */
  lemma ModScale(a: nat, b: nat, s: nat)
    requires b > 0 && s > 0
    ensures (a * s) % (b * s) == (a % b) * s
  {
    var q, r := a / b, a % b;
    assert a == b * q + r;
    assert a * s == (b * s) * q + r * s;
    MulNonNeg(r, s);
    MulStrictMono(r, b, s);
    DivModUnique(a * s, b * s, q, r * s);
  }

  /** `Gcd` commutes with scaling: gcd(a*s, b*s) = s * gcd(a, b). */
  lemma {:induction false} GcdScale(a: nat, b: nat, s: nat)
    requires s > 0
    ensures Gcd(a * s, b * s) == s * Gcd(a, b)
    decreases a + b
  {
    MulNonNeg(a, s);
    MulNonNeg(b, s);
    if a == 0 || b == 0 {
    } else if a > b {
      MulStrictMono(b, a, s);
      ModScale(a, b, s);
      GcdScale(a % b, b, s);
    } else {
      if a < b {
        MulStrictMono(a, b, s);
      }
      ModScale(b, a, s);
      GcdScale(a, b % a, s);
    }
  }

  /** Cancelling a positive factor. */
  lemma CancelFactor(g: int, x: int, y: int)
    requires g > 0 && g * x == g * y
    ensures x == y
  {
    assert g * (x - y) == 0;
    SmallMultiple(g, x - y, 0);
  }

  /** A number divided by one of its divisors, times that divisor. */
  lemma QuotientTimesDivisor(g: int, a: int)
    requires Divides(g, a)
    ensures (a / g) * g == a
  {
  }

  /** `a` and `b` have no common divisor other than 1. */
  ghost predicate Coprime(a: int, b: int)
  {
    forall d :: Divides(d, a) && Divides(d, b) ==> d == 1
  }

  /** For `b > 0`, coprimality is `Gcd(a, b) == 1`. */
  lemma CoprimeIffGcdOne(a: nat, b: nat)
    requires b > 0
    ensures Coprime(a, b) <==> Gcd(a, b) == 1
  {
    GcdDivides(a, b);
    if Gcd(a, b) == 1 {
      forall d | Divides(d, a) && Divides(d, b)
        ensures d == 1
      {
        GcdGreatest(a, b, d);
        DivisorBounded(d, 1);
      }
    }
  }

  /** Dividing out the gcd leaves coprime quotients. */
  lemma ReducedIsCoprime(a: nat, b: nat)
    requires b > 0
    ensures Gcd(a, b) > 0
    ensures Coprime(a / Gcd(a, b), b / Gcd(a, b))
  {
    GcdDivides(a, b);
    var g := Gcd(a, b);
    var p: nat, q: nat := a / g, b / g;
    QuotientTimesDivisor(g, a);
    QuotientTimesDivisor(g, b);
    GcdScale(p, q, g);
    var h := Gcd(p, q);
    assert g * h == g * 1;
    CancelFactor(g, h, 1);
    if q == 0 {
      MulNonNeg(q, g);
    }
    CoprimeIffGcdOne(p, q);
  }

  /** Euclid's lemma in the form needed for fractions: if `q` is coprime to
      `p` and `p * s == r * q`, then `q` divides `s`. */
  lemma CoprimeDividesOther(p: nat, q: nat, r: nat, s: nat)
    requires q > 0 && s > 0 && Coprime(p, q) && p * s == r * q
    ensures Divides(q, s)
  {
    CoprimeIffGcdOne(p, q);
    MulNonNeg(p, s);
    MulNonNeg(q, s);
    var ps: nat, qs: nat := p * s, q * s;
    GcdScale(p, q, s);
    assert Gcd(ps, qs) == s;
    MultipleDivides(q, r);
    MultipleDivides(q, s);
    assert Divides(q, ps) && Divides(q, qs);
    GcdGreatest(ps, qs, q);
  }
}

=== FILE: layout.dfy ===
/**
 * Spawning an equation: the generation of its terms from random draws and
 * the packing of their elements outward from the equals sign.  Randomness
 * is an input: every engine draw is a raw value supplied by the caller, and
 * the measured widths of the elements are inputs too.
 */
module Layout {
  import opened Outcomes
  import opened Terms

  // ---------------------------------------------------------------------
  // Generation
  // ---------------------------------------------------------------------

  /** `Random.Range(lo, hi)` on integers: any value of `[lo, hi)`, chosen by
      an arbitrary raw draw. */
  function RandomRange(lo: int, hi: int, raw: int): (r: int)
    requires lo < hi
    ensures lo <= r < hi
  {
    lo + raw % (hi - lo)
  }

  /** Every value of the range is some draw's outcome. */
  lemma RandomRangeCovers(lo: int, hi: int, v: int)
    requires lo <= v < hi
    ensures RandomRange(lo, hi, v - lo) == v
  {
  }

  /** The bounds of the coefficient and constant draws. */
  const MinValue: int := -20
  const MaxValue: int := 20

  /** The name every generated variable term carries. */
  const VariableName: string := "x"

  /** The raw draws one `SpawnEquation` consumes: the left-hand term count,
      the right-hand term count, the variable-term budget, for each term the
      value draws (retried while zero) and the `Random.value` roll deciding
      between a variable and a constant. */
  datatype Draws = Draws(lhs: int, rhs: int, vars: int, values: seq<seq<int>>, rolls: seq<real>)

  /** A generated term and whether it is the first term of its side, whose
      sign is dropped. */
  datatype Spawned = Spawned(term: Term, dropSign: bool)

  datatype Equation = Equation(nLft: nat, terms: seq<Spawned>)

  function LeftCount(d: Draws): (n: int)
    ensures 1 <= n <= 4
  {
    RandomRange(1, 5, d.lhs)
  }

  /** The total term count: at least one term right of "=", at least two
      when there is a single term left of it, at most four on the right. */
  function TermCount(d: Draws): (n: int)
    ensures LeftCount(d) + (if LeftCount(d) > 1 then 1 else 2) <= n <= LeftCount(d) + 4
    ensures n >= 3
  {
    LeftCount(d) + RandomRange(if LeftCount(d) > 1 then 1 else 2, 5, d.rhs)
  }

  /** The initial variable-term budget `Random.Range(1, nTerms)`. */
  function VariableBudget(d: Draws): (n: int)
    ensures 1 <= n < TermCount(d)
  {
    RandomRange(1, TermCount(d), d.vars)
  }

  /** The value draw of a term, redrawn for as long as it comes out zero:
      the first non-zero outcome, or None when the supplied draws run out
      first. */
  function FirstNonZero(raws: seq<int>): (r: Option<int>)
    ensures r.Some? ==> r.value != 0 && MinValue <= r.value < MaxValue
    ensures r.None? <==> forall k :: 0 <= k < |raws| ==> RandomRange(MinValue, MaxValue, raws[k]) == 0
  {
    if |raws| == 0 then None
    else
      var v := RandomRange(MinValue, MaxValue, raws[0]);
      if v != 0 then Some(v)
      else
        var rest := FirstNonZero(raws[1..]);
        assert forall k :: 1 <= k < |raws| ==> raws[k] == raws[1..][k - 1];
        rest
  }

  function VarCount(ts: seq<Spawned>): nat
  {
    if |ts| == 0 then 0
    else VarCount(ts[..|ts| - 1]) + (if ts[|ts| - 1].term.VariableTerm? then 1 else 0)
  }

  /** The draws suffice for a whole equation: a value draw list with a
      non-zero outcome and a roll for every term. */
  predicate Enough(d: Draws)
  {
    && |d.values| >= TermCount(d) && |d.rolls| >= TermCount(d)
    && forall i :: 0 <= i < TermCount(d) ==> FirstNonZero(d.values[i]).Some?
  }

  /** `Random.value < prob` with `prob = remaining / left`: never a variable
      once the budget is spent, always one (short of a roll of exactly 1) when
      the budget equals the terms left. */
  function ChoosesVariable(remaining: nat, left: nat, roll: real): (b: bool)
    requires left > 0
    ensures remaining == 0 && roll >= 0.0 ==> !b
    ensures remaining == left && roll < 1.0 ==> b
  {
    roll < (remaining as real) / (left as real)
  }

  predicate UnitRolls(d: Draws)
  {
    forall k :: 0 <= k < |d.rolls| ==> 0.0 <= d.rolls[k] <= 1.0
  }

  /** The variable budget left when term i is generated: the initial budget,
      less one for every earlier term whose roll chose a variable. */
  function Remaining(d: Draws, i: nat): (r: nat)
    requires UnitRolls(d) && i <= TermCount(d) && i <= |d.rolls|
    ensures r <= VariableBudget(d)
  {
    if i == 0 then VariableBudget(d)
    else
      var prev := Remaining(d, i - 1);
      if ChoosesVariable(prev, TermCount(d) - (i - 1), d.rolls[i - 1]) then prev - 1 else prev
  }

  lemma RemainingStep(d: Draws, i: nat)
    requires UnitRolls(d) && i < TermCount(d) && i < |d.rolls|
    ensures var prev := Remaining(d, i);
      Remaining(d, i + 1) == if ChoosesVariable(prev, TermCount(d) - i, d.rolls[i]) then prev - 1 else prev
  {
  }

  /** Term k is a variable term exactly when its roll chose one for the
      budget left at that point. */
  predicate ChosenBy(d: Draws, k: nat, s: Spawned)
  {
    && UnitRolls(d) && k < TermCount(d) && k < |d.rolls|
    && (s.term.VariableTerm? <==> ChoosesVariable(Remaining(d, k), TermCount(d) - k, d.rolls[k]))
  }

  /** Every term of `ts` is term k as the draws decide it. */
  predicate AllSpawned(d: Draws, nLft: nat, ts: seq<Spawned>)
  {
    forall k :: 0 <= k < |ts| ==>
      SpawnedFrom(d, nLft, k, ts[k]) && ChosenBy(d, k, ts[k]) && FirstNonZero(d.values[k]).Some?
  }

  lemma AllSpawnedExtend(d: Draws, nLft: nat, ts: seq<Spawned>, s: Spawned)
    requires AllSpawned(d, nLft, ts)
    requires SpawnedFrom(d, nLft, |ts|, s) && ChosenBy(d, |ts|, s)
    requires |ts| < |d.values| && FirstNonZero(d.values[|ts|]).Some?
    ensures AllSpawned(d, nLft, ts + [s])
  {
    assert forall k :: 0 <= k < |ts| ==> (ts + [s])[k] == ts[k];
  }

  /** One more term, as the draws decide it, keeps `AllSpawned` and spends
      one unit of budget exactly when it is a variable term. */
  lemma SpawnStep(d: Draws, nLft: nat, ts: seq<Spawned>, s: Spawned)
    requires UnitRolls(d) && |ts| < TermCount(d) && |ts| < |d.rolls| && |ts| < |d.values|
    requires AllSpawned(d, nLft, ts)
    requires SpawnedFrom(d, nLft, |ts|, s) && ChosenBy(d, |ts|, s)
    ensures AllSpawned(d, nLft, ts + [s])
    ensures VarCount(ts + [s]) == VarCount(ts) + (if s.term.VariableTerm? then 1 else 0)
    ensures Remaining(d, |ts| + 1) == Remaining(d, |ts|) - (if s.term.VariableTerm? then 1 else 0)
  {
    RemainingStep(d, |ts|);
    AllSpawnedExtend(d, nLft, ts, s);
    assert (ts + [s])[..|ts|] == ts;
  }

  /** The budget left after some terms is the initial budget less the
      variable terms among them. */
  lemma {:induction false} RemainingCounts(d: Draws, nLft: nat, ts: seq<Spawned>)
    requires UnitRolls(d) && |ts| <= TermCount(d) && |ts| <= |d.rolls|
    requires AllSpawned(d, nLft, ts)
    ensures VarCount(ts) + Remaining(d, |ts|) == VariableBudget(d)
  {
    if |ts| > 0 {
      var n := |ts| - 1;
      var init := ts[..n];
      assert forall k :: 0 <= k < n ==> init[k] == ts[k];
      RemainingCounts(d, nLft, init);
      RemainingStep(d, n);
      assert ChosenBy(d, n, ts[n]);
    }
  }

  /** Short of a roll of exactly 1, the budget never exceeds the terms left:
      once they are equal, every remaining roll chooses a variable. */
  lemma {:induction false} RemainingSpent(d: Draws, i: nat)
    requires UnitRolls(d) && i <= TermCount(d) && i <= |d.rolls|
    requires forall k :: 0 <= k < |d.rolls| ==> d.rolls[k] < 1.0
    ensures Remaining(d, i) <= TermCount(d) - i
  {
    if i > 0 {
      RemainingSpent(d, i - 1);
      RemainingStep(d, i - 1);
    }
  }

  lemma AllSpawnedMeans(d: Draws, nLft: nat, ts: seq<Spawned>)
    requires UnitRolls(d) && |ts| <= TermCount(d) && |ts| <= |d.rolls| && |ts| <= |d.values|
    requires AllSpawned(d, nLft, ts)
    ensures forall i :: 0 <= i < |ts| ==> FirstNonZero(d.values[i]).Some?
    ensures forall i :: 0 <= i < |ts| ==> SpawnedFrom(d, nLft, i, ts[i])
    ensures forall i :: 0 <= i < |ts| ==>
      (ts[i].term.VariableTerm? <==> ChoosesVariable(Remaining(d, i), TermCount(d) - i, d.rolls[i]))
  {
    assert forall i :: 0 <= i < |ts| ==> ChosenBy(d, i, ts[i]);
  }

  /** Term k of an equation with `nLft` terms on the left, as the draws
      decide it: its value is the first non-zero value draw of its list (so
      non-zero and in range), its denominator is 1, a variable is named `x`,
      and its sign is dropped exactly when it is the first term of a side. */
  predicate SpawnedFrom(d: Draws, nLft: nat, k: nat, s: Spawned)
  {
    var t := s.term;
    && k < |d.values| && FirstNonZero(d.values[k]) == Some(GetValue(t))
    && GetValue(t) != 0 && MinValue <= GetValue(t) < MaxValue && t.denominator == 1
    && (t.VariableTerm? ==> t.variable == VariableName)
    && (s.dropSign <==> k == 0 || k == nLft)
  }

  /** The loop of `SpawnEquation` over terms `0 .. nTerms - 1`, given enough
      draw lists and rolls.  None exactly when a term's value draws run out. */
  method SpawnTerms(d: Draws, nLft: nat, nTerms: nat) returns (r: Option<seq<Spawned>>)
    requires UnitRolls(d) && nTerms == TermCount(d) && |d.values| >= nTerms && |d.rolls| >= nTerms
    ensures r.Some? <==> forall i :: 0 <= i < nTerms ==> FirstNonZero(d.values[i]).Some?
    ensures r.Some? ==> |r.value| == nTerms
    ensures r.Some? ==> forall i :: 0 <= i < |r.value| ==> SpawnedFrom(d, nLft, i, r.value[i])
    ensures r.Some? ==> forall i :: 0 <= i < |r.value| ==>
      (r.value[i].term.VariableTerm? <==> ChoosesVariable(Remaining(d, i), TermCount(d) - i, d.rolls[i]))
    ensures r.Some? ==> VarCount(r.value) + Remaining(d, nTerms) == VariableBudget(d)
    ensures r.Some? && (forall k :: 0 <= k < |d.rolls| ==> d.rolls[k] < 1.0) ==> Remaining(d, nTerms) == 0
  {
    var nVar := VariableBudget(d);
    var terms: seq<Spawned> := [];
    var i := 0;
    while i < nTerms
      invariant 0 <= i <= nTerms && |terms| == i
      invariant nVar == Remaining(d, i)
      invariant AllSpawned(d, nLft, terms)
    {
      var dropSign := i == 0 || i == nLft;
      var value := FirstNonZero(d.values[i]);
      if value.None? {
        return None;
      }
      var t;
      if ChoosesVariable(nVar, nTerms - i, d.rolls[i]) {
        t := NewVariable(VariableName, value.value, 1);
        nVar := nVar - 1;
      } else {
        t := NewConstant(value.value, 1);
      }
      var spawned := Spawned(t, dropSign);
      assert SpawnedFrom(d, nLft, i, spawned) && ChosenBy(d, i, spawned);
      SpawnStep(d, nLft, terms, spawned);
      terms := terms + [spawned];
      i := i + 1;
    }
    AllSpawnedMeans(d, nLft, terms);
    RemainingCounts(d, nLft, terms);
    if forall k :: 0 <= k < |d.rolls| ==> d.rolls[k] < 1.0 {
      RemainingSpent(d, nTerms);
    }
    return Some(terms);
  }

  /**
   * The generation of `SpawnEquation`.  Term i becomes a variable term `x`
   * when its roll is below (remaining budget)/(terms left), which spends
   * one unit of budget.  The result is None when the supplied draws run out.
   * Every term is non-zero with denominator 1, exactly the first term of each
   * side drops its sign, the number of variable terms never exceeds the
   * initial budget, and it equals the budget whenever no roll is exactly 1.
   */
  method Generate(d: Draws) returns (r: Option<Equation>)
    requires UnitRolls(d)
    ensures r.Some? <==> Enough(d)
    ensures r.Some? ==> r.value.nLft == LeftCount(d) && |r.value.terms| == TermCount(d)
    ensures r.Some? ==> forall i :: 0 <= i < |r.value.terms| ==> SpawnedFrom(d, r.value.nLft, i, r.value.terms[i])
    ensures r.Some? ==> forall i :: 0 <= i < |r.value.terms| ==>
      (r.value.terms[i].term.VariableTerm? <==> ChoosesVariable(Remaining(d, i), TermCount(d) - i, d.rolls[i]))
    ensures r.Some? ==> VarCount(r.value.terms) <= VariableBudget(d)
    ensures r.Some? && (forall k :: 0 <= k < |d.rolls| ==> d.rolls[k] < 1.0) ==>
      VarCount(r.value.terms) == VariableBudget(d)
  {
    var nLft := LeftCount(d);
    var nTerms := TermCount(d);
    if |d.values| < nTerms || |d.rolls| < nTerms {
      return None;
    }
    var terms := SpawnTerms(d, nLft, nTerms);
    if terms.None? {
      return None;
    }
    return Some(Equation(nLft, terms.value));
  }

  // ---------------------------------------------------------------------
  // Packing
  // ---------------------------------------------------------------------

  function Sum(s: seq<real>): real
  {
    if |s| == 0 then 0.0 else s[0] + Sum(s[1..])
  }

  /** The widths of several terms' elements, added up. */
  function SumAll(ws: seq<seq<real>>): real
  {
    if |ws| == 0 then 0.0 else Sum(ws[0]) + SumAll(ws[1..])
  }

  lemma {:induction false} SumSplit(s: seq<real>, j: nat)
    requires j <= |s|
    ensures Sum(s) == Sum(s[..j]) + Sum(s[j..])
  {
    if j > 0 {
      assert s[..j][1..] == s[1..][..j - 1];
      assert s[j..] == s[1..][j - 1..];
      SumSplit(s[1..], j - 1);
    } else {
      assert s[j..] == s;
    }
  }

  lemma SumLast(s: seq<real>)
    requires |s| > 0
    ensures Sum(s) == Sum(s[..|s| - 1]) + s[|s| - 1]
  {
    SumSplit(s, |s| - 1);
    assert s[|s| - 1..][1..] == [];
  }

  lemma {:induction false} SumAllSplit(ws: seq<seq<real>>, i: nat)
    requires i <= |ws|
    ensures SumAll(ws) == SumAll(ws[..i]) + SumAll(ws[i..])
  {
    if i > 0 {
      assert ws[..i][1..] == ws[1..][..i - 1];
      assert ws[i..] == ws[1..][i - 1..];
      SumAllSplit(ws[1..], i - 1);
    } else {
      assert ws[i..] == ws;
    }
  }

  lemma SumAllLast(ws: seq<seq<real>>)
    requires |ws| > 0
    ensures SumAll(ws) == SumAll(ws[..|ws| - 1]) + Sum(ws[|ws| - 1])
  {
    SumAllSplit(ws, |ws| - 1);
    assert ws[|ws| - 1..][1..] == [];
  }

  lemma SumExtend(s: seq<real>, j: nat)
    requires j < |s|
    ensures Sum(s[..j + 1]) == Sum(s[..j]) + s[j]
  {
    SumLast(s[..j + 1]);
    assert s[..j + 1][..j] == s[..j];
  }

  lemma SumAllExtend(ws: seq<seq<real>>, lo: nat, hi: nat)
    requires lo <= hi < |ws|
    ensures SumAll(ws[lo..hi + 1]) == SumAll(ws[lo..hi]) + Sum(ws[hi])
  {
    SumAllLast(ws[lo..hi + 1]);
    assert ws[lo..hi + 1][..hi - lo] == ws[lo..hi];
  }

  predicate PositiveWidths(ws: seq<seq<real>>)
  {
    forall i, j :: 0 <= i < |ws| && 0 <= j < |ws[i]| ==> ws[i][j] > 0.0
  }

  lemma {:induction false} SumPositive(s: seq<real>)
    requires forall j :: 0 <= j < |s| ==> s[j] > 0.0
    ensures Sum(s) >= 0.0
    ensures |s| > 0 ==> Sum(s) > 0.0
  {
    if |s| > 0 {
      assert forall j :: 0 <= j < |s| - 1 ==> s[1..][j] == s[j + 1];
      SumPositive(s[1..]);
    }
  }

  lemma {:induction false} SumAllPositive(ws: seq<seq<real>>)
    requires PositiveWidths(ws)
    ensures SumAll(ws) >= 0.0
  {
    if |ws| > 0 {
      SumPositive(ws[0]);
      assert forall i :: 0 <= i < |ws| - 1 ==> ws[1..][i] == ws[i + 1];
      SumAllPositive(ws[1..]);
    }
  }

  /**
   * Where the packing puts element j of term i, given each element's width
   * and the equals sign's width.  A left-hand element sits left of "=" by
   * half the sign, the terms between it and the sign, the elements of its
   * own term right of it, and half its own width; a right-hand element
   * likewise to the right.
   */
  function PackedX(ws: seq<seq<real>>, equalsWidth: real, nLft: nat, i: nat, j: nat): real
    requires nLft <= |ws| && i < |ws| && j < |ws[i]|
  {
    if i < nLft then
      -(equalsWidth / 2.0 + SumAll(ws[i + 1..nLft]) + Sum(ws[i][j + 1..]) + ws[i][j] / 2.0)
    else
      equalsWidth / 2.0 + SumAll(ws[nLft..i]) + Sum(ws[i][..j]) + ws[i][j] / 2.0
  }

  /**
   * The layout loops of `SpawnEquation`: the left-hand terms from the one
   * nearest "=" outward, each from its last element to its first, inserting
   * each position at the front of the term's list; then the right-hand terms
   * from "=" outward, appending.  The positions come out in the order of the
   * term's elements.
   */
  method Pack(ws: seq<seq<real>>, equalsWidth: real, nLft: nat) returns (xs: seq<seq<real>>)
    requires nLft <= |ws|
    ensures |xs| == |ws| && forall i :: 0 <= i < |ws| ==> |xs[i]| == |ws[i]|
    ensures forall i, j :: 0 <= i < |ws| && 0 <= j < |ws[i]| ==> xs[i][j] == PackedX(ws, equalsWidth, nLft, i, j)
  {
    var lwidth := equalsWidth / 2.0;
    var rwidth := equalsWidth / 2.0;
    xs := seq(|ws|, _ => []);
    var i := nLft;
    while i > 0
      invariant 0 <= i <= nLft && |xs| == |ws|
      invariant lwidth == equalsWidth / 2.0 + SumAll(ws[i..nLft])
      invariant forall k :: i <= k < nLft ==> |xs[k]| == |ws[k]|
      invariant forall k, j :: i <= k < nLft && 0 <= j < |ws[k]| ==> xs[k][j] == PackedX(ws, equalsWidth, nLft, k, j)
      invariant forall k :: 0 <= k < i || nLft <= k < |ws| ==> xs[k] == []
    {
      i := i - 1;
      assert ws[i..nLft][1..] == ws[i + 1..nLft];
      var j := |ws[i]|;
      ghost var before := xs;
      while j > 0
        invariant 0 <= j <= |ws[i]| && |xs| == |ws|
        invariant lwidth == equalsWidth / 2.0 + SumAll(ws[i + 1..nLft]) + Sum(ws[i][j..])
        invariant |xs[i]| == |ws[i]| - j
        invariant forall m :: 0 <= m < |xs[i]| ==> xs[i][m] == PackedX(ws, equalsWidth, nLft, i, j + m)
        invariant forall k :: 0 <= k < |ws| && k != i ==> xs[k] == before[k]
        decreases j
      {
        j := j - 1;
        var w := ws[i][j];
        assert ws[i][j..][1..] == ws[i][j + 1..];
        xs := xs[i := [-(lwidth + w / 2.0)] + xs[i]];
        lwidth := lwidth + w;
      }
    }
    i := nLft;
    while i < |ws|
      invariant nLft <= i <= |ws| && |xs| == |ws|
      invariant rwidth == equalsWidth / 2.0 + SumAll(ws[nLft..i])
      invariant forall k :: 0 <= k < i ==> |xs[k]| == |ws[k]|
      invariant forall k, j :: 0 <= k < i && 0 <= j < |ws[k]| ==> xs[k][j] == PackedX(ws, equalsWidth, nLft, k, j)
      invariant forall k :: i <= k < |ws| ==> xs[k] == []
    {
      var j := 0;
      ghost var before := xs;
      while j < |ws[i]|
        invariant 0 <= j <= |ws[i]| && |xs| == |ws|
        invariant rwidth == equalsWidth / 2.0 + SumAll(ws[nLft..i]) + Sum(ws[i][..j])
        invariant |xs[i]| == j
        invariant forall m :: 0 <= m < j ==> xs[i][m] == PackedX(ws, equalsWidth, nLft, i, m)
        invariant forall k :: 0 <= k < |ws| && k != i ==> xs[k] == before[k]
      {
        var w := ws[i][j];
        SumExtend(ws[i], j);
        xs := xs[i := xs[i] + [rwidth + w / 2.0]];
        rwidth := rwidth + w;
        j := j + 1;
      }
      SumAllExtend(ws, nLft, i);
      assert ws[i][..j] == ws[i];
      i := i + 1;
    }
  }

  /** With positive widths every left-hand element lies left of the equals
      sign's centre and every right-hand element right of it. */
  lemma PackedSides(ws: seq<seq<real>>, equalsWidth: real, nLft: nat, i: nat, j: nat)
    requires nLft <= |ws| && i < |ws| && j < |ws[i]|
    requires PositiveWidths(ws) && equalsWidth >= 0.0
    ensures i < nLft ==> PackedX(ws, equalsWidth, nLft, i, j) < 0.0
    ensures nLft <= i ==> PackedX(ws, equalsWidth, nLft, i, j) > 0.0
  {
    if i < nLft {
      SumAllPositive(ws[i + 1..nLft]);
      SumPositive(ws[i][j + 1..]);
    } else {
      SumAllPositive(ws[nLft..i]);
      SumPositive(ws[i][..j]);
    }
  }

  /** Neighbouring elements of one term abut: their centres are half of each
      width apart. */
  lemma PackedAbutWithinTerm(ws: seq<seq<real>>, equalsWidth: real, nLft: nat, i: nat, j: nat)
    requires nLft <= |ws| && i < |ws| && j + 1 < |ws[i]|
    ensures PackedX(ws, equalsWidth, nLft, i, j + 1) - PackedX(ws, equalsWidth, nLft, i, j)
      == (ws[i][j] + ws[i][j + 1]) / 2.0
  {
    if i < nLft {
      assert ws[i][j + 1..][1..] == ws[i][j + 2..];
    } else {
      SumExtend(ws[i], j);
    }
  }

  /** The last element of a term abuts the first element of the next term,
      except across the equals sign, where the gap is exactly the sign's
      width. */
  lemma PackedAbutAcrossTerms(ws: seq<seq<real>>, equalsWidth: real, nLft: nat, i: nat)
    requires nLft <= |ws| && i + 1 < |ws| && |ws[i]| > 0 && |ws[i + 1]| > 0
    ensures var a := |ws[i]| - 1;
      PackedX(ws, equalsWidth, nLft, i + 1, 0) - PackedX(ws, equalsWidth, nLft, i, a)
        == (ws[i][a] + ws[i + 1][0]) / 2.0 + (if i + 1 == nLft then equalsWidth else 0.0)
  {
    var a := |ws[i]| - 1;
    if i + 1 < nLft {
      assert ws[i + 1..nLft][1..] == ws[i + 2..nLft];
      assert ws[i + 1][1..] == ws[i + 1][0 + 1..];
      assert ws[i][a + 1..] == [];
    } else if i + 1 == nLft {
      assert ws[i][a + 1..] == [];
      assert ws[i + 1..nLft] == [] && ws[nLft..i + 1] == [];
    } else {
      SumAllExtend(ws, nLft, i);
      SumLast(ws[i]);
      assert ws[i][..a] == ws[i][..|ws[i]| - 1];
      assert ws[i + 1][..0] == [];
    }
  }

  predicate NonEmptyTerms(ws: seq<seq<real>>)
  {
    forall i :: 0 <= i < |ws| ==> |ws[i]| > 0
  }

  /** Element (i, j) comes before element (i2, j2) reading left to right. */
  predicate Before(i: nat, j: nat, i2: nat, j2: nat)
  {
    i < i2 || (i == i2 && j < j2)
  }

  /** With positive widths the packed positions strictly increase from the
      leftmost element of the equation to the rightmost. */
  lemma {:induction false} PackedOrdered(ws: seq<seq<real>>, equalsWidth: real, nLft: nat,
                                         i: nat, j: nat, i2: nat, j2: nat)
    requires nLft <= |ws| && PositiveWidths(ws) && NonEmptyTerms(ws) && equalsWidth >= 0.0
    requires i < |ws| && j < |ws[i]| && i2 < |ws| && j2 < |ws[i2]| && Before(i, j, i2, j2)
    ensures PackedX(ws, equalsWidth, nLft, i, j) < PackedX(ws, equalsWidth, nLft, i2, j2)
    decreases i2, j2
  {
    if j2 > 0 {
      PackedAbutWithinTerm(ws, equalsWidth, nLft, i2, j2 - 1);
      if i != i2 || j != j2 - 1 {
        PackedOrdered(ws, equalsWidth, nLft, i, j, i2, j2 - 1);
      }
    } else {
      var a := |ws[i2 - 1]| - 1;
      PackedAbutAcrossTerms(ws, equalsWidth, nLft, i2 - 1);
      if i != i2 - 1 || j != a {
        PackedOrdered(ws, equalsWidth, nLft, i, j, i2 - 1, a);
      }
    }
  }
}

=== FILE: outcomes.dfy ===
/** Failure-carrying values shared by the whole model. */
module Outcomes {

  /** The exceptions the modelled code can raise. */
  datatype Error =
    | DivideByZero   // System.DivideByZeroException
    | KeyNotFound    // KeyNotFoundException from a Dictionary lookup

  /** A value or the exception that replaced it. */
  datatype Result<+T> = Ok(value: T) | Err(error: Error)

  /** A reference that may be null. */
  datatype Option<+T> = None | Some(value: T)
}

=== FILE: overlap.dfy ===
/**
 * The target picker of a drag (`getOverlappedTerm`): among the colliders the
 * physics engine reports as touching the grabbed element, the one whose box
 * overlaps the grabbed element's box by the largest area.  The physics query
 * is an input: a list of hits, each the owner of the collider and its box.
 */
module Overlap {
  import opened Outcomes
  import opened Geometry

  /** Who owns a collider: element `elem` of term `term`, or an object that is
      not a term's element (the equals sign has a collider too). */
  datatype Owner = Element(term: nat, elem: nat) | Unowned

  datatype Hit = Hit(owner: Owner, box: Box)

  /** The size of the result buffer handed to `OverlapCollider`. */
  const MaxHits: nat := 5

  /** Only the first `MaxHits` reported colliders are looked at. */
  function Considered(hits: seq<Hit>): (hs: seq<Hit>)
    ensures |hs| <= MaxHits && hs <= hits
    ensures |hits| <= MaxHits ==> hs == hits
    ensures |hits| > MaxHits ==> hs == hits[..MaxHits]
  {
    if |hits| <= MaxHits then hits else hits[..MaxHits]
  }

  /** The product of the overlaps along x and along y.  Neither factor is
      clamped at zero. */
  function Area(a: Box, b: Box): real
  {
    (Min(a.max.x, b.max.x) - Max(a.min.x, b.min.x)) * (Min(a.max.y, b.max.y) - Max(a.min.y, b.min.y))
  }

  /** Two boxes that overlap along neither axis still give a positive area. */
  lemma AreaIsUnclamped()
    ensures var a := Box(Vec3(0.0, 0.0, 0.0), Vec3(1.0, 1.0, 0.0));
            var b := Box(Vec3(2.0, 2.0, 0.0), Vec3(3.0, 3.0, 0.0));
            Area(a, b) == 1.0
  {
  }

  /** For boxes that do overlap, the area is that of their intersection and
      is symmetric. */
  lemma AreaOfOverlap(a: Box, b: Box)
    requires a.min.x <= b.max.x && b.min.x <= a.max.x && a.min.y <= b.max.y && b.min.y <= a.max.y
    requires a.min.x <= a.max.x && a.min.y <= a.max.y && b.min.x <= b.max.x && b.min.y <= b.max.y
    ensures Area(a, b) >= 0.0 && Area(a, b) == Area(b, a)
    ensures Area(a, b) <= (a.max.x - a.min.x) * (a.max.y - a.min.y)
  {
    var xl := Min(a.max.x, b.max.x) - Max(a.min.x, b.min.x);
    var yl := Min(a.max.y, b.max.y) - Max(a.min.y, b.min.y);
    assert 0.0 <= xl <= a.max.x - a.min.x && 0.0 <= yl <= a.max.y - a.min.y;
    MulMono(xl, yl, a.max.x - a.min.x, a.max.y - a.min.y);
  }

  lemma MulMono(x: real, y: real, x2: real, y2: real)
    requires 0.0 <= x <= x2 && 0.0 <= y <= y2
    ensures 0.0 <= x * y <= x2 * y2
  {
    assert x * y <= x2 * y;
    assert x2 * y <= x2 * y2;
  }

  // ---------------------------------------------------------------------
  // The largest-overlap rule
  // ---------------------------------------------------------------------

  /** Which hits take part: with `filtered`, only elements of terms other
      than the grabbed one; otherwise every hit. */
  predicate Candidate(h: Hit, own: nat, filtered: bool)
  {
    !filtered || (h.owner.Element? && h.owner.term != own)
  }

  /**
   * Hit k wins: it takes part, overlaps by a positive area, beats every
   * earlier candidate strictly and is not beaten by any later one.  Ties go
   * to the earliest hit.
   */
  predicate Winner(mv: Box, hs: seq<Hit>, k: nat, own: nat, filtered: bool)
  {
    && k < |hs| && Candidate(hs[k], own, filtered) && Area(mv, hs[k].box) > 0.0
    && (forall e :: 0 <= e < k && Candidate(hs[e], own, filtered) ==> Area(mv, hs[e].box) < Area(mv, hs[k].box))
    && (forall e :: k < e < |hs| && Candidate(hs[e], own, filtered) ==> Area(mv, hs[e].box) <= Area(mv, hs[k].box))
  }

  /** There is at most one winner. */
  lemma WinnerUnique(mv: Box, hs: seq<Hit>, k: nat, k2: nat, own: nat, filtered: bool)
    requires Winner(mv, hs, k, own, filtered) && Winner(mv, hs, k2, own, filtered)
    ensures k == k2
  {
  }

  /** The state of the scan after the first i hits: `best` and `maxArea` are
      the winner so far (hit w) and its area, or None and 0. */
  ghost predicate ScanState(mv: Box, hs: seq<Hit>, i: nat, best: Option<nat>, maxArea: real, w: nat,
                            own: nat, filtered: bool)
  {
    && i <= |hs| && maxArea >= 0.0
    && (best.None? ==> maxArea == 0.0 && forall e :: 0 <= e < i && Candidate(hs[e], own, filtered) ==> Area(mv, hs[e].box) <= 0.0)
    && (best.Some? ==>
          && w < i && Candidate(hs[w], own, filtered) && hs[w].owner.Element? && best.value == hs[w].owner.term
          && Area(mv, hs[w].box) == maxArea && maxArea > 0.0
          && (forall e :: 0 <= e < w && Candidate(hs[e], own, filtered) ==> Area(mv, hs[e].box) < maxArea)
          && (forall e :: w < e < i && Candidate(hs[e], own, filtered) ==> Area(mv, hs[e].box) <= maxArea))
  }

  // ---------------------------------------------------------------------
  // As written: any record-breaking collider is looked up among the terms
  // ---------------------------------------------------------------------

  /** The loop of `getOverlappedTerm`: a hit whose area beats the running
      maximum is looked up in the term map, which throws for a collider that
      is not a term's element. */
  function ScanAsWritten(mv: Box, hs: seq<Hit>, i: nat, best: Option<nat>, maxArea: real): Result<Option<nat>>
    requires i <= |hs|
    decreases |hs| - i
  {
    if i == |hs| then Ok(best)
    else
      var a := Area(mv, hs[i].box);
      if a > maxArea then
        match hs[i].owner
        case Unowned => Err(KeyNotFound)
        case Element(t, _) => ScanAsWritten(mv, hs, i + 1, Some(t), a)
      else ScanAsWritten(mv, hs, i + 1, best, maxArea)
  }

  function OverlappedAsWritten(mv: Box, hits: seq<Hit>): Result<Option<nat>>
  {
    ScanAsWritten(mv, Considered(hits), 0, None, 0.0)
  }

  /** Hit k beats 0 and every hit before it: the lookup happens for it. */
  predicate Record(mv: Box, hs: seq<Hit>, k: nat)
  {
    && k < |hs| && Area(mv, hs[k].box) > 0.0
    && forall e :: 0 <= e < k ==> Area(mv, hs[k].box) > Area(mv, hs[e].box)
  }

  /** Taking hit i as the new best keeps the scan state. */
  lemma ScanTake(mv: Box, hs: seq<Hit>, i: nat, best: Option<nat>, maxArea: real, w: nat, own: nat, filtered: bool)
    requires ScanState(mv, hs, i, best, maxArea, w, own, filtered) && i < |hs|
    requires Candidate(hs[i], own, filtered) && hs[i].owner.Element? && Area(mv, hs[i].box) > maxArea
    ensures ScanState(mv, hs, i + 1, Some(hs[i].owner.term), Area(mv, hs[i].box), i, own, filtered)
  {
  }

  /** Passing over hit i keeps the scan state. */
  lemma ScanSkip(mv: Box, hs: seq<Hit>, i: nat, best: Option<nat>, maxArea: real, w: nat, own: nat, filtered: bool)
    requires ScanState(mv, hs, i, best, maxArea, w, own, filtered) && i < |hs|
    requires !Candidate(hs[i], own, filtered) || Area(mv, hs[i].box) <= maxArea
    ensures ScanState(mv, hs, i + 1, best, maxArea, w, own, filtered)
  {
  }

  /** At the end of the scan the best so far is the winner. */
  lemma ScanDone(mv: Box, hs: seq<Hit>, best: Option<nat>, maxArea: real, w: nat, own: nat, filtered: bool)
    requires ScanState(mv, hs, |hs|, best, maxArea, w, own, filtered)
    ensures best.None? <==> forall e :: 0 <= e < |hs| && Candidate(hs[e], own, filtered) ==> Area(mv, hs[e].box) <= 0.0
    ensures best.Some? ==> Winner(mv, hs, w, own, filtered) && hs[w].owner.term == best.value
  {
  }

  /** Without filtering, a hit is a record exactly when it beats the
      running maximum. */
  lemma RecordIffBeatsMax(mv: Box, hs: seq<Hit>, i: nat, best: Option<nat>, maxArea: real, w: nat, own: nat)
    requires ScanState(mv, hs, i, best, maxArea, w, own, false) && i < |hs|
    ensures Record(mv, hs, i) <==> Area(mv, hs[i].box) > maxArea
  {
  }

  /** The scan as written throws exactly at a record-breaking collider that
      is not a term's element. */
  lemma {:induction false} ScanAsWrittenFails(mv: Box, hs: seq<Hit>, i: nat, best: Option<nat>, maxArea: real, w: nat, own: nat)
    returns (k: nat)
    requires ScanState(mv, hs, i, best, maxArea, w, own, false)
    requires forall k :: 0 <= k < i && Record(mv, hs, k) ==> hs[k].owner.Element?
    ensures var r := ScanAsWritten(mv, hs, i, best, maxArea);
      && (r.Err? ==> r.error == KeyNotFound && Record(mv, hs, k) && hs[k].owner.Unowned?)
      && (forall e :: 0 <= e < |hs| && Record(mv, hs, e) && hs[e].owner.Unowned? ==> r.Err?)
    decreases |hs| - i
  {
    k := 0;
    if i < |hs| {
      var a := Area(mv, hs[i].box);
      RecordIffBeatsMax(mv, hs, i, best, maxArea, w, own);
      if a > maxArea {
        if hs[i].owner.Element? {
          ScanTake(mv, hs, i, best, maxArea, w, own, false);
          k := ScanAsWrittenFails(mv, hs, i + 1, Some(hs[i].owner.term), a, i, own);
        } else {
          k := i;
        }
      } else {
        ScanSkip(mv, hs, i, best, maxArea, w, own, false);
        k := ScanAsWrittenFails(mv, hs, i + 1, best, maxArea, w, own);
      }
    }
  }

  /** When the scan as written returns, it returns the winner among all
      hits. */
  lemma {:induction false} ScanAsWrittenReturns(mv: Box, hs: seq<Hit>, i: nat, best: Option<nat>, maxArea: real, w: nat, own: nat)
    returns (k: nat)
    requires ScanState(mv, hs, i, best, maxArea, w, own, false)
    ensures var r := ScanAsWritten(mv, hs, i, best, maxArea);
      && (r.Ok? ==> (r.value.None? <==> forall e :: 0 <= e < |hs| ==> Area(mv, hs[e].box) <= 0.0))
      && (r.Ok? && r.value.Some? ==>
            Winner(mv, hs, k, own, false) && hs[k].owner.Element? && hs[k].owner.term == r.value.value)
    decreases |hs| - i
  {
    k := w;
    if i == |hs| {
      ScanDone(mv, hs, best, maxArea, w, own, false);
    } else {
      var a := Area(mv, hs[i].box);
      if a > maxArea {
        if hs[i].owner.Element? {
          ScanTake(mv, hs, i, best, maxArea, w, own, false);
          k := ScanAsWrittenReturns(mv, hs, i + 1, Some(hs[i].owner.term), a, i, own);
        }
      } else {
        ScanSkip(mv, hs, i, best, maxArea, w, own, false);
        k := ScanAsWrittenReturns(mv, hs, i + 1, best, maxArea, w, own);
      }
    }
  }

  /**
   * The picker as written.  It throws `KeyNotFound` exactly when some
   * collider that is not a term's element beats every earlier one (and 0);
   * otherwise it returns the owner of the largest-overlap hit among ALL hits,
   * the grabbed term's own elements included, or None when no area is
   * positive.
   */
  lemma OverlappedAsWrittenMeets(mv: Box, hits: seq<Hit>, own: nat)
    ensures var hs := Considered(hits); var r := OverlappedAsWritten(mv, hits);
      && (r.Err? <==> exists k :: 0 <= k < |hs| && Record(mv, hs, k) && hs[k].owner.Unowned?)
      && (r.Err? ==> r.error == KeyNotFound)
      && (r.Ok? ==> (r.value.None? <==> forall e :: 0 <= e < |hs| ==> Area(mv, hs[e].box) <= 0.0))
      && (r.Ok? && r.value.Some? ==> exists k: nat :: Winner(mv, hs, k, own, false) && hs[k].owner.term == r.value.value)
  {
    var k := ScanAsWrittenFails(mv, Considered(hits), 0, None, 0.0, 0, own);
    var k2 := ScanAsWrittenReturns(mv, Considered(hits), 0, None, 0.0, 0, own);
  }

  // ---------------------------------------------------------------------
  // Corrected: only other terms' elements take part
  // ---------------------------------------------------------------------

  /** The picker with the colliders it cannot map to a term, and the grabbed
      term's own elements, skipped. */
  function Scan(mv: Box, own: nat, hs: seq<Hit>, i: nat, best: Option<nat>, maxArea: real): Option<nat>
    requires i <= |hs|
    decreases |hs| - i
  {
    if i == |hs| then best
    else
      var a := Area(mv, hs[i].box);
      if Candidate(hs[i], own, true) && a > maxArea then Scan(mv, own, hs, i + 1, Some(hs[i].owner.term), a)
      else Scan(mv, own, hs, i + 1, best, maxArea)
  }

  function Pick(mv: Box, own: nat, hits: seq<Hit>): Option<nat>
  {
    Scan(mv, own, Considered(hits), 0, None, 0.0)
  }

  lemma {:induction false} ScanMeets(mv: Box, own: nat, hs: seq<Hit>, i: nat, best: Option<nat>, maxArea: real, w: nat)
    returns (k: nat)
    requires ScanState(mv, hs, i, best, maxArea, w, own, true)
    ensures var r := Scan(mv, own, hs, i, best, maxArea);
      && (r.None? <==> forall e :: 0 <= e < |hs| && Candidate(hs[e], own, true) ==> Area(mv, hs[e].box) <= 0.0)
      && (r.Some? ==> Winner(mv, hs, k, own, true) && hs[k].owner.term == r.value)
    decreases |hs| - i
  {
    k := w;
    if i == |hs| {
      ScanDone(mv, hs, best, maxArea, w, own, true);
    } else {
      var a := Area(mv, hs[i].box);
      if Candidate(hs[i], own, true) && a > maxArea {
        ScanTake(mv, hs, i, best, maxArea, w, own, true);
        k := ScanMeets(mv, own, hs, i + 1, Some(hs[i].owner.term), a, i);
      } else {
        ScanSkip(mv, hs, i, best, maxArea, w, own, true);
        k := ScanMeets(mv, own, hs, i + 1, best, maxArea, w);
      }
    }
  }

  /**
   * The corrected picker returns the term of the unique largest-overlap hit
   * among the first five, counting only other terms' elements, or None
   * exactly when none of them overlaps by a positive area.  It never returns
   * the grabbed term and never fails.
   */
  lemma PickIsWinner(mv: Box, own: nat, hits: seq<Hit>)
    ensures var hs := Considered(hits); var r := Pick(mv, own, hits);
      && (r.None? <==> forall e :: 0 <= e < |hs| && Candidate(hs[e], own, true) ==> Area(mv, hs[e].box) <= 0.0)
      && (forall k: nat :: Winner(mv, hs, k, own, true) ==> r == Some(hs[k].owner.term))
      && (r.Some? ==> r.value != own && exists k: nat :: Winner(mv, hs, k, own, true) && hs[k].owner.term == r.value)
  {
    var hs := Considered(hits);
    var k2 := ScanMeets(mv, own, hs, 0, None, 0.0, 0);
    var r := Pick(mv, own, hits);
    forall k: nat | Winner(mv, hs, k, own, true)
      ensures r == Some(hs[k].owner.term)
    {
      WinnerUnique(mv, hs, k, k2, own, true);
    }
  }

  // ---------------------------------------------------------------------
  // Where the two differ
  // ---------------------------------------------------------------------

  const UnitBox: Box := Box(Vec3(0.0, 0.0, 0.0), Vec3(2.0, 2.0, 0.0))
  const ShiftedBox: Box := Box(Vec3(1.0, 1.0, 0.0), Vec3(3.0, 3.0, 0.0))

  /** Dragging a term over the equals sign throws: its collider is the first
      hit and is not in the term map.  The corrected picker returns None. */
  lemma EqualsSignThrows()
    ensures OverlappedAsWritten(UnitBox, [Hit(Unowned, ShiftedBox)]) == Err(KeyNotFound)
    ensures Pick(UnitBox, 0, [Hit(Unowned, ShiftedBox)]) == None
  {
    var hs := [Hit(Unowned, ShiftedBox)];
    assert Area(UnitBox, ShiftedBox) == 1.0;
    assert Considered(hs) == hs;
    assert Scan(UnitBox, 0, hs, 1, None, 0.0) == None;
  }

  /** Grabbing the variable of term 3 over its own coefficient picks term 3
      itself; the corrected picker does not. */
  lemma OwnCoefficientPicked()
    ensures OverlappedAsWritten(UnitBox, [Hit(Element(3, 0), ShiftedBox)]) == Ok(Some(3))
    ensures Pick(UnitBox, 3, [Hit(Element(3, 0), ShiftedBox)]) == None
  {
    var hs := [Hit(Element(3, 0), ShiftedBox)];
    assert Area(UnitBox, ShiftedBox) == 1.0;
    assert Considered(hs) == hs;
    assert ScanAsWritten(UnitBox, hs, 1, Some(3), 1.0) == Ok(Some(3));
    assert Scan(UnitBox, 3, hs, 1, None, 0.0) == None;
  }
}

=== FILE: terms.dfy ===
/**
 * Constant and variable terms as the term factory builds them: the value
 * they report and the text of the game objects their `instantiate(dropSign)`
 * creates (a sign followed by the magnitude's digits, and for a variable a
 * second object holding the variable's name).
 */
module Terms {
  import opened Outcomes
  import opened Decimal
  import IntMath

  /** A term keeps the integers it was constructed with. */
  datatype Term =
    | ConstantTerm(numerator: int, denominator: int)
    | VariableTerm(variable: string, numerator: int, denominator: int)

  /** `new ConstantTerm(numerator, denominator = 1)`. */
  function NewConstant(numerator: int, denominator: int := 1): Term
  {
    ConstantTerm(numerator, denominator)
  }

  /** `new VariableTerm(variable, numerator, denominator = 1)`. */
  function NewVariable(variable: string, numerator: int, denominator: int := 1): Term
  {
    VariableTerm(variable, numerator, denominator)
  }

  /** `getValue()`: both kinds report the numerator and ignore the denominator. */
  function GetValue(t: Term): int
  {
    t.numerator
  }

  /** `getValue` returns exactly the constructor's numerator, whatever the
      denominator, for both kinds of term. */
  lemma GetValueIsConstructorNumerator(v: string, n: int, d1: int, d2: int)
    ensures GetValue(NewConstant(n, d1)) == n && GetValue(NewVariable(v, n, d1)) == n
    ensures GetValue(NewConstant(n, d1)) == GetValue(NewConstant(n, d2))
    ensures GetValue(NewVariable(v, n, d1)) == GetValue(NewVariable(v, n, d2))
  {
  }

  /** The sign text of a constant: " + " / " - ", or with `dropSign`
      "" for a non-negative and "- " for a negative value. */
  function ConstantSign(n: int, dropSign: bool): (s: string)
    ensures !dropSign ==> (s == " + " <==> n >= 0) && (s == " - " <==> n < 0)
    ensures dropSign ==> (s == "" <==> n >= 0) && (s == "- " <==> n < 0)
  {
    if dropSign then (if n < 0 then "- " else "")
    else if n >= 0 then " + " else " - "
  }

  /** The sign text of a variable: as for a constant, except that with
      `dropSign` a non-negative value gets " " rather than "". */
  function VariableSign(n: int, dropSign: bool): (s: string)
    ensures !dropSign ==> (s == " + " <==> n >= 0) && (s == " - " <==> n < 0)
    ensures dropSign ==> (s == " " <==> n >= 0) && (s == "- " <==> n < 0)
    ensures dropSign && n >= 0 ==> s != ConstantSign(n, dropSign)
  {
    if dropSign then (if n < 0 then "- " else " ")
    else if n >= 0 then " + " else " - "
  }

  /** A constant's text: its sign followed by its magnitude.  The combine and
      separate previews write this text (never dropping the sign) into the
      first object of the term they update. */
  function ConstantText(n: int, dropSign: bool): string
  {
    ConstantSign(n, dropSign) + NatToString(IntMath.Abs(n))
  }

  /** How many game objects a term owns. */
  function ElementCount(t: Term): nat
  {
    if t.ConstantTerm? then 1 else 2
  }

  /** The texts of the game objects `instantiate(dropSign)` creates, in order:
      a constant's sign and magnitude; a variable's sign and magnitude (the
      magnitude omitted when it is 1) followed by the variable's name. */
  function ElementTexts(t: Term, dropSign: bool): (r: seq<string>)
    ensures |r| == ElementCount(t)
    ensures t.VariableTerm? ==> r[1] == t.variable
  {
    match t
    case ConstantTerm(n, _) =>
      [ConstantText(n, dropSign)]
    case VariableTerm(v, n, _) =>
      var sign := VariableSign(n, dropSign);
      [if IntMath.Abs(n) == 1 then sign else sign + NatToString(IntMath.Abs(n)), v]
  }

  predicate HasDigit(s: string)
  {
    exists i :: 0 <= i < |s| && IsDigit(s[i])
  }

  predicate IsSignChar(c: char)
  {
    c == ' ' || c == '+' || c == '-'
  }

  /** Skips the leading spaces and sign characters of a term's text,
      noting whether a '-' was among them. */
  function ReadSign(s: string): (r: (bool, string))
    ensures |r.1| <= |s|
  {
    if |s| > 0 && IsSignChar(s[0]) then
      var r := ReadSign(s[1..]);
      (r.0 || s[0] == '-', r.1)
    else (false, s)
  }

  /** Reads a displayed value back from a term's first text: a sign, then
      the magnitude's digits; a bare sign reads as magnitude 1 only where
      the display omits a 1. */
  function ReadDisplayed(s: string, bareIsOne: bool): Option<int>
  {
    var (neg, digits) := ReadSign(s);
    if |digits| == 0 then
      (if bareIsOne then Some(if neg then -1 else 1) else None)
    else if AllDigits(digits) then
      Some(if neg then -(ParseDigits(digits) as int) else ParseDigits(digits) as int)
    else None
  }

  lemma {:induction false} ReadSignPrefix(p: string, rest: string)
    requires forall i :: 0 <= i < |p| ==> IsSignChar(p[i])
    requires |rest| == 0 || !IsSignChar(rest[0])
    ensures ReadSign(p + rest) == ('-' in p, rest)
  {
    if |p| > 0 {
      assert (p + rest)[1..] == p[1..] + rest;
      ReadSignPrefix(p[1..], rest);
      assert '-' in p <==> p[0] == '-' || '-' in p[1..];
    } else {
      assert p + rest == rest;
    }
  }

  /** A constant's text reads back as its value, whatever `dropSign`. */
  lemma ConstantTextRoundTrip(n: int, dropSign: bool)
    ensures ReadDisplayed(ConstantText(n, dropSign), false) == Some(n)
    ensures HasDigit(ConstantText(n, dropSign))
  {
    DisplayRoundTrip(NewConstant(n), dropSign);
  }

  /**
   * The display is faithful: reading a term's first text back gives its
   * value, for either kind and either `dropSign`, and a variable shows a
   * digit exactly when its magnitude is not 1 (both +1 and -1 show only
   * the sign), while a constant always shows its digits.
   */
  lemma DisplayRoundTrip(t: Term, dropSign: bool)
    ensures ReadDisplayed(ElementTexts(t, dropSign)[0], t.VariableTerm?) == Some(GetValue(t))
    ensures t.ConstantTerm? ==> HasDigit(ElementTexts(t, dropSign)[0])
    ensures t.VariableTerm? ==> (HasDigit(ElementTexts(t, dropSign)[0]) <==> IntMath.Abs(t.numerator) != 1)
  {
    var n := t.numerator;
    var digits := NatToString(IntMath.Abs(n));
    NatRoundTrip(IntMath.Abs(n));
    var sign := if t.ConstantTerm? then ConstantSign(n, dropSign) else VariableSign(n, dropSign);
    assert '-' in sign <==> n < 0;
    assert !HasDigit(sign);
    assert |digits| > 0 && IsDigit(digits[0]);
    if t.VariableTerm? && IntMath.Abs(n) == 1 {
      ReadSignPrefix(sign, "");
      assert sign + "" == sign;
    } else {
      ReadSignPrefix(sign, digits);
      assert (sign + digits)[|sign|] == digits[0];
    }
  }
}

=== FILE: visualelements.dfy ===
/**
 * The visual elements of an equation: the display state a fraction element
 * derives from its value (`FracVisElem.update`), the box an element composes
 * from the measured sizes of its parts (`calculateBounds`), the placement of
 * its parts around a root position (`setPosition`) and part lookup
 * (`contains`).  Measured text sizes are inputs.
 */
module VisualElements {
  import opened Outcomes
  import opened Geometry
  import opened Decimal
  import IntMath
  import Fractions

  const FontSize: nat := 25
  const MiniFontSize: nat := 20

  /** The text objects and the line of a fraction element, and the two line
      endpoints and the variable's single text object. */
  datatype Key = SignKey | NumKey | LineKey | DenKey | LineStartKey | LineEndKey | VarKey

  /** What a fraction element shows.  The sign text object is always active;
      the line has no text. */
  datatype FracView = FracView(
    rootName: string,
    signText: string,
    numText: string,
    numFont: nat,
    numActive: bool,
    lineActive: bool,
    denText: string,
    denActive: bool)

  /**
   * `FracVisElem.update(rat, hideSign, hideOne)`.  A whole number hides the
   * line and the denominator, and also hides the numerator when the value is
   * exactly 1 and `hideOne` is set; a hidden numerator keeps its old text and
   * font.  A proper fraction shows all three parts in the small font.
   */
  function Update(v: FracView, rat: Fractions.Fraction, hideSign: bool, hideOne: bool): (r: FracView)
    ensures r.signText == " + " <==> rat.num >= 0 && !hideSign
    ensures r.signText == " " <==> rat.num >= 0 && hideSign
    ensures r.signText == " - " <==> rat.num < 0
    ensures rat.den == 1 ==>
      !r.lineActive && !r.denActive && (r.numActive <==> !(Fractions.EqualInt(rat, 1) && hideOne))
    ensures rat.den != 1 ==> r.numActive && r.lineActive && r.denActive && r.numFont == MiniFontSize
    ensures r.numActive ==> AllDigits(r.numText) && ParseDigits(r.numText) == IntMath.Abs(rat.num)
    ensures r.numActive ==> r.numText == NatToString(IntMath.Abs(rat.num))
    ensures r.numActive && rat.den == 1 ==> r.numFont == FontSize
    ensures !r.numActive ==> r.numText == v.numText && r.numFont == v.numFont
    ensures r.denActive ==> ParseInt(r.denText) == Some(rat.den) && r.denText == IntToString(rat.den)
    ensures !r.denActive ==> r.denText == v.denText
    ensures r.rootName == Fractions.ToString(rat)
  {
    var sign := if rat.num >= 0 then (if hideSign then " " else " + ") else " - ";
    var digits := NatToString(IntMath.Abs(rat.num));
    NatRoundTrip(IntMath.Abs(rat.num));
    IntRoundTrip(rat.den);
    if rat.den == 1 then
      var isHiddenOne := Fractions.EqualInt(rat, 1) && hideOne;
      FracView(Fractions.ToString(rat), sign,
        if isHiddenOne then v.numText else digits,
        if isHiddenOne then v.numFont else FontSize,
        !isHiddenOne, false, v.denText, false)
    else
      FracView(Fractions.ToString(rat), sign, digits, MiniFontSize, true, true, IntToString(rat.den), true)
  }

  /** `new FracVisElem(parent, rat, hideSign, hideOne)`: empty texts, the
      numerator's font chosen by the denominator, then `update`. */
  function NewFracView(rat: Fractions.Fraction, hideSign: bool, hideOne: bool): (r: FracView)
    ensures !r.numActive ==> r.numText == "" && r.numFont == FontSize
    ensures r.numActive ==> AllDigits(r.numText) && ParseDigits(r.numText) == IntMath.Abs(rat.num)
    ensures r.numActive ==> r.numText == NatToString(IntMath.Abs(rat.num))
    ensures r.denActive ==> r.denText == IntToString(rat.den)
  {
    var fontSize := if rat.den == 1 then FontSize else MiniFontSize;
    Update(FracView("", "", "", fontSize, true, true, "", true), rat, hideSign, hideOne)
  }

  /** What a reader of the screen sees: the sign, the numerator (1 when it
      is hidden) and the denominator (1 when it is hidden). */
  function ReadBack(v: FracView): Option<Fractions.Fraction>
  {
    var neg := v.signText == " - ";
    var magnitude := if v.numActive then (if AllDigits(v.numText) then Some(ParseDigits(v.numText)) else None) else Some(1);
    var den := if v.denActive then ParseInt(v.denText) else Some(1);
    if magnitude.None? || den.None? then None
    else Some(Fractions.Fraction(if neg then -(magnitude.value as int) else magnitude.value as int, den.value))
  }

  /** The display is faithful: reading back what `update` shows gives the
      fraction it was given, whatever was shown before and whatever the
      flags; in particular a hidden numerator only ever stands for +1. */
  lemma DisplayRoundTrip(v: FracView, rat: Fractions.Fraction, hideSign: bool, hideOne: bool)
    requires Fractions.Valid(rat)
    ensures ReadBack(Update(v, rat, hideSign, hideOne)) == Some(rat)
  {
    var r := Update(v, rat, hideSign, hideOne);
    if !r.numActive {
      assert rat.num == 1;
    }
  }

  /** The results of `calculateBounds`: the offsets it has written (entries it
      does not write keep their earlier values), the element's box, and the
      one collider size it computes rather than copies from a measured text:
      the fraction line's for a fraction element, the variable text's (its
      measured size) for a variable element. */
  datatype Bounds = Bounds(offsets: map<Key, Vec3>, bounds: Size, colliderSize: Size)

  /** The stroke of the fraction line and its overhang past the wider of
      numerator and denominator. */
  const LineThickness: real := 2.0
  const LineOverhang: real := 2.0

  /**
   * `FracVisElem.calculateBounds` over the measured sizes of the sign,
   * numerator and denominator texts.  A proper fraction puts the sign left
   * of the line, the numerator above it and the denominator below it; a
   * whole number puts the sign left of the numerator; a hidden one leaves
   * only the sign.
   */
  function FracBounds(old_: map<Key, Vec3>, numActive: bool, denActive: bool,
                      sign: Size, num: Size, den: Size): (r: Bounds)
    ensures r.colliderSize == Size(Max(num.w, den.w) + LineOverhang, LineThickness)
    ensures denActive ==>
      && r.bounds == Size(sign.w + r.colliderSize.w, num.h + LineThickness + den.h)
      && r.offsets.Keys == old_.Keys + {SignKey, LineKey, NumKey, DenKey, LineStartKey, LineEndKey}
    ensures !denActive && numActive ==>
      && r.bounds == Size(sign.w + num.w, Max(num.h, sign.h))
      && r.offsets.Keys == old_.Keys + {SignKey, NumKey}
    ensures !denActive && !numActive ==>
      && r.bounds == sign
      && r.offsets == old_[SignKey := Origin]
    ensures forall k :: k in old_ && k !in Written(numActive, denActive) ==> r.offsets[k] == old_[k]
  {
    var line := Size(Max(num.w, den.w) + LineOverhang, LineThickness);
    if denActive then
      var lineOffset := Horizontal(sign.w / 2.0);
      var offsets := old_[SignKey := Horizontal(-(line.w / 2.0))]
                         [LineKey := lineOffset]
                         [NumKey := Plus(Vertical((line.h + num.h) / 2.0), lineOffset)]
                         [DenKey := Plus(Vertical(-((line.h + den.h) / 2.0)), lineOffset)]
                         [LineStartKey := Plus(lineOffset, Horizontal(-(line.w / 2.0)))]
                         [LineEndKey := Plus(lineOffset, Horizontal(line.w / 2.0))];
      Bounds(offsets, Size(sign.w + line.w, num.h + line.h + den.h), line)
    else if numActive then
      var offsets := old_[SignKey := Horizontal(-(num.w / 2.0))][NumKey := Horizontal(sign.w / 2.0)];
      Bounds(offsets, Size(sign.w + num.w, Max(num.h, sign.h)), line)
    else
      Bounds(old_[SignKey := Origin], sign, line)
  }

  /** The offsets a `calculateBounds` call writes, by state. */
  function Written(numActive: bool, denActive: bool): set<Key>
  {
    if denActive then {SignKey, LineKey, NumKey, DenKey, LineStartKey, LineEndKey}
    else if numActive then {SignKey, NumKey}
    else {SignKey}
  }

  /**
   * The box tiles exactly.  In the fraction state the sign's box and the
   * line's box abut and together span the element's width centred on the
   * root, the numerator sits on the line and the denominator hangs under
   * it, the three stacking to the element's height, and the line's
   * endpoints are its two ends.  In the whole-number state the sign and the
   * numerator abut and span the width centred on the root.  The sign, the
   * line and its endpoints (or the sign and the numerator) sit on the
   * root's horizontal, and every written offset lies in the root's plane.
   */
  lemma FracBoundsTile(old_: map<Key, Vec3>, numActive: bool, denActive: bool,
                       sign: Size, num: Size, den: Size)
    requires NonNegative(sign) && NonNegative(num) && NonNegative(den)
    ensures var r := FracBounds(old_, numActive, denActive, sign, num, den);
      denActive ==>
        var s := Centred(r.offsets[SignKey], sign);
        var l := Centred(r.offsets[LineKey], r.colliderSize);
        var n := Centred(r.offsets[NumKey], num);
        var d := Centred(r.offsets[DenKey], den);
        && s.max.x == l.min.x
        && s.min.x == -r.bounds.w / 2.0 && l.max.x == r.bounds.w / 2.0
        && n.min.y == l.max.y && d.max.y == l.min.y
        && n.max.y - d.min.y == r.bounds.h
        && r.offsets[NumKey].x == r.offsets[LineKey].x == r.offsets[DenKey].x
        && r.offsets[LineStartKey].x == l.min.x && r.offsets[LineEndKey].x == l.max.x
        && r.offsets[SignKey].y == 0.0 && r.offsets[LineKey].y == 0.0
        && r.offsets[LineStartKey].y == 0.0 && r.offsets[LineEndKey].y == 0.0
        && num.w <= r.colliderSize.w && den.w <= r.colliderSize.w
    ensures var r := FracBounds(old_, numActive, denActive, sign, num, den);
      !denActive && numActive ==>
        var s := Centred(r.offsets[SignKey], sign);
        var n := Centred(r.offsets[NumKey], num);
        && s.max.x == n.min.x
        && s.min.x == -r.bounds.w / 2.0 && n.max.x == r.bounds.w / 2.0
        && r.offsets[SignKey].y == 0.0 && r.offsets[NumKey].y == 0.0
        && sign.h <= r.bounds.h && num.h <= r.bounds.h
    ensures var r := FracBounds(old_, numActive, denActive, sign, num, den);
      forall k :: k in Written(numActive, denActive) ==> k in r.offsets && r.offsets[k].z == 0.0
  {
  }

  /** `VarVisElem.calculateBounds`: the variable's text sits at the root and
      the box is its measured size. */
  function VarBounds(old_: map<Key, Vec3>, text: Size): (r: Bounds)
    ensures r.offsets == old_[VarKey := Origin] && r.bounds == text && r.colliderSize == text
    ensures Centred(r.offsets[VarKey], text) == Box(Vec3(-text.w / 2.0, -text.h / 2.0, 0.0), Vec3(text.w / 2.0, text.h / 2.0, 0.0))
  {
    Bounds(old_[VarKey := Origin], text, text)
  }

  /** One child object of an element: its registry key, its identity, whether
      it is active, its position, and for the fraction line (the one part
      without a text component) its two endpoints. */
  datatype Part = Part(key: Key, id: nat, active: bool, isLine: bool,
                       position: Vec3, lineStart: Vec3, lineEnd: Vec3)

  datatype Element = Element(root: Vec3, parts: seq<Part>)

  /** `setPosition` reads the offset of every active part, and the line's
      two endpoint offsets when the line is active. */
  predicate Positionable(e: Element, offsets: map<Key, Vec3>)
  {
    forall i :: 0 <= i < |e.parts| && e.parts[i].active ==>
      e.parts[i].key in offsets && (e.parts[i].isLine ==> LineStartKey in offsets && LineEndKey in offsets)
  }

  /** Every part is a child of the root: moving the root from `root` to `pos`
      carries it along, and an active part is then put at its offset. */
  function PlacePart(p: Part, root: Vec3, pos: Vec3, offsets: map<Key, Vec3>): Part
    requires p.active ==> p.key in offsets && (p.isLine ==> LineStartKey in offsets && LineEndKey in offsets)
  {
    if !p.active then p.(position := Plus(p.position, Minus(pos, root)))
    else if p.isLine then
      p.(position := Plus(pos, offsets[p.key]),
         lineStart := Plus(pos, offsets[LineStartKey]),
         lineEnd := Plus(pos, offsets[LineEndKey]))
    else p.(position := Plus(pos, offsets[p.key]))
  }

  /**
   * `setPosition(pos)`: the root goes to `pos`, carrying its child parts
   * with it; then every active part goes to `pos` plus its offset (the
   * line's endpoints likewise).  An inactive part keeps its displacement
   * from the root, and an inactive line keeps its endpoints, which the line
   * renderer holds in world coordinates.
   */
  function SetPosition(e: Element, pos: Vec3, offsets: map<Key, Vec3>): (r: Element)
    requires Positionable(e, offsets)
    ensures r.root == pos && |r.parts| == |e.parts|
    ensures forall i :: 0 <= i < |e.parts| ==>
      && r.parts[i].key == e.parts[i].key && r.parts[i].id == e.parts[i].id
      && r.parts[i].active == e.parts[i].active && r.parts[i].isLine == e.parts[i].isLine
    ensures forall i :: 0 <= i < |e.parts| && !e.parts[i].active ==>
      && Minus(r.parts[i].position, r.root) == Minus(e.parts[i].position, e.root)
      && r.parts[i].lineStart == e.parts[i].lineStart && r.parts[i].lineEnd == e.parts[i].lineEnd
    ensures forall i :: 0 <= i < |e.parts| && e.parts[i].active ==>
      Plus(pos, offsets[e.parts[i].key]) == r.parts[i].position
    ensures forall i :: 0 <= i < |e.parts| && e.parts[i].active && e.parts[i].isLine ==>
      r.parts[i].lineStart == Plus(pos, offsets[LineStartKey]) && r.parts[i].lineEnd == Plus(pos, offsets[LineEndKey])
  {
    Element(pos, seq(|e.parts|, i requires 0 <= i < |e.parts| && Positionable(e, offsets) => PlacePart(e.parts[i], e.root, pos, offsets)))
  }

  /** Placing twice with the same offsets is the same as placing once at the
      second position: the last placement wins and nothing accumulates. */
  lemma SetPositionLastWins(e: Element, p: Vec3, q: Vec3, offsets: map<Key, Vec3>)
    requires Positionable(e, offsets)
    ensures Positionable(SetPosition(e, p, offsets), offsets)
    ensures SetPosition(SetPosition(e, p, offsets), q, offsets) == SetPosition(e, q, offsets)
  {
    var once := SetPosition(e, p, offsets);
    var twice := SetPosition(once, q, offsets);
    var direct := SetPosition(e, q, offsets);
    assert forall i :: 0 <= i < |e.parts| ==> twice.parts[i] == direct.parts[i];
  }

  /** Placement is rigid: any two parts, active or not, keep the same
      displacement between them wherever the element is placed. */
  lemma SetPositionRigid(e: Element, p: Vec3, q: Vec3, offsets: map<Key, Vec3>, i: nat, j: nat)
    requires Positionable(e, offsets)
    requires i < |e.parts| && j < |e.parts|
    ensures var a := SetPosition(e, p, offsets); var b := SetPosition(e, q, offsets);
      Minus(a.parts[i].position, a.parts[j].position) == Minus(b.parts[i].position, b.parts[j].position)
  {
  }

  /** `contains(go)`: a linear search of the element's registered parts. */
  method Contains(e: Element, go: nat) returns (found: bool)
    ensures found <==> exists i :: 0 <= i < |e.parts| && e.parts[i].id == go
  {
    var i := 0;
    while i < |e.parts|
      invariant 0 <= i <= |e.parts|
      invariant forall j :: 0 <= j < i ==> e.parts[j].id != go
    {
      if e.parts[i].id == go {
        return true;
      }
      i := i + 1;
    }
    return false;
  }
}
